=== FILE: README.md ===
# Cluster network reconciliation, modelled in Dafny

This project models the network reconciliation engine of a Kubernetes
cluster provider for Azure. It covers two parts:

- **The cluster orchestrator.** It creates the cluster's networking substrate
  in a fixed order: resource group, virtual network, security groups, route
  table, subnets, internal load balancer, API-server public IP and load
  balancer, and, with IPv6, an egress public IP and load balancer. It tears
  the substrate down in dependency-safe order. It also writes derived values
  back onto the cluster scope: the API-server IP name, its DNS name, and the
  failure domains.
- **The network-interface service.** For each machine it assembles the
  interface's IP configuration and creates it. For a control-plane machine
  this includes choosing a free SSH NAT frontend port: 22, else the first
  free port in 2201..2219. On delete it removes each interface and its NAT
  rule.

Remote calls are modelled as oracles. A resource client becomes a function
from request to answer (`NicCloud`, `ClusterCloud`), and each operation
returns the trace of calls it made. Every ordering, abort and tolerance
property is a statement about that trace.

Files:

- `outcomes.dfy` (`Outcomes`): results, statuses, and the error kinds the code
  distinguishes.
- `naming.dfy` (`Naming`): UTF-8 encoding, 32-bit FNV-1a, lower-case hex
  rendering, and the cluster hash.
- `inbound_nat.dfy` (`InboundNat`): frontend port selection and the NAT rule
  plan.
- `network_interfaces.dfy` (`NetworkInterfaces`): per-interface assembly, and
  the reconcile and delete loops.
- `services.dfy` (`Services`): the specs handed to the resource services, and
  the generic fail-fast runner `Run`.
- `cluster.dfy` (`AzureCluster`): the cluster scope, the derived values, and
  the Reconcile and Delete plans and passes.

Behaviour kept as the code has it:

- Delete names the load balancers after the cluster name. Reconcile names
  them with the `control-plane` prefix.
- Delete removes only the API-server public IP and the load balancers
  named after the cluster (`AzureCluster.DeleteTargets`). So it does not
  remove the IPv6 egress public IP or load balancer unless their names
  coincide with those. The egress IP goes when the API-server IP is named
  like it, configured or generated (a cluster named `cluster` with a
  generated name, for instance). The egress load balancer goes when its
  name equals the cluster's load-balancer name, as for a cluster named
  `cluster`.
- Once the interface delete succeeds or finds nothing, the NAT-rule delete
  on the public load balancer is attempted, even when that name is empty.
- The DNS name of the API-server IP is recomputed on every pass, even when
  the name is already set (controllers/azurecluster_reconciler.go:328).
- The reconcile of the egress pair depends on the cluster-wide IPv6 flag.
  The CIDR lists depend on the virtual network's own IPv6 flag.

## Model

| member | source | states |
|---|---|---|
| Naming.DecodeEncodeChar | controllers/azurecluster_reconciler.go:324 | The UTF-8 bytes of a character decode back to that character. |
| Naming.EncodeChar | controllers/azurecluster_reconciler.go:324 | A character is encoded in 1 to 4 bytes by its code point range. ASCII is its own single byte, and every continuation byte lies in 0x80..0xBF. |
| Naming.Utf8 | controllers/azurecluster_reconciler.go:324 | A string takes at least one and at most four bytes per character. The body defines the bytes as the encodings of the characters, in order; `Naming.Utf8Append` states that this distributes over concatenation. |
| Naming.Utf8Append | controllers/azurecluster_reconciler.go:324 | Encoding the key `sub/rg/name` is the concatenation of the encodings of its parts. |
| Naming.FnvFromAppend | controllers/azurecluster_reconciler.go:323-324 | FNV-1a is incremental: hashing `a+b` equals hashing `a` and then continuing with `b`. |
| Naming.FnvFromStates | controllers/azurecluster_reconciler.go:323-324 | Hashing from a state follows any chain of states in which each is one xor-then-multiply-by-0x01000193 round after the previous; the result is the last state. |
| Naming.LowerHex | controllers/azurecluster_reconciler.go:325 | `%x` output is non-empty, uses only `0-9a-f`, and has a leading zero only for the value 0. |
| Naming.ParseLowerHex | controllers/azurecluster_reconciler.go:325 | The rendered hex digits parse back to the number. |
| Naming.LowerHexWidth | controllers/azurecluster_reconciler.go:325 | A value below 16^k renders in at most k digits, so a `uint32` hash takes at most 8. |
| Naming.ClusterHash | controllers/azurecluster_reconciler.go:323-325 | The hash string has 1 to 8 lower-case hex digits, no leading zero unless it is "0", and its value is the 32-bit FNV-1a of the UTF-8 bytes of `sub/rg/name`. |
| Naming.CanonicalHexUnique | controllers/azurecluster_reconciler.go:325 | Two lower-case hex strings without leading zeros that have the same value are equal, so a number has one `%x` rendering. |
| Naming.ClusterHashIsTheRendering | controllers/azurecluster_reconciler.go:323-325 | A canonical hex string (no leading zero unless it is "0") is the cluster hash exactly when its value is the FNV-1a of the key: the hash is fully determined. |
| Naming.ClusterHashExample | controllers/azurecluster_reconciler.go:323-325 | Subscription "sub", group "rg" and cluster "demo" hash to "f70641f5". |
| InboundNat.UsedPorts | cloud/services/networkinterfaces/networkinterfaces.go:152-159 | The set of used ports holds exactly the frontend ports of the existing rules. |
| InboundNat.FirstFreeFrom | cloud/services/networkinterfaces/networkinterfaces.go:161-172 | Returns the least unused port in [lo, 2220). If none is free, every port in that range is used. |
| InboundNat.SelectFrontendPort | cloud/services/networkinterfaces/networkinterfaces.go:147-173 | Gives 22 when 22 is free. Otherwise gives the least free port in 2201..2219. The chosen port is never used. The result is None exactly when 22 and 2201..2219 are all used. |
| InboundNat.SelectIsFirstFreeCandidate | cloud/services/networkinterfaces/networkinterfaces.go:147-173 | Reference definition: the selection is the first free candidate in the scan order 22, 2201, …, 2219, and is None exactly when every candidate is used. |
| InboundNat.ExampleNextAlternatePort | cloud/services/networkinterfaces/networkinterfaces.go:160-169 | With ports 22, 2201 and 2202 in use, the next rule gets 2203. |
| InboundNat.ExampleRangeExhausted | cloud/services/networkinterfaces/networkinterfaces.go:160-172 | With 22 and all of 2201..2219 in use, no port is available. |
| InboundNat.PlanInboundNatRule | cloud/services/networkinterfaces/networkinterfaces.go:146-186 | Missing properties or a missing rule list give a config error naming the load balancer. Nothing is to be created exactly when a rule of the same name exists. Otherwise a free candidate port always yields a new rule, and an exhausted range is a capacity error. A new rule has backend port 22, no floating IP, a 4-minute idle timeout, TCP, the first frontend configuration, and a frontend port no existing rule uses. |
| NetworkInterfaces.CreateInboundNatRule | cloud/services/networkinterfaces/networkinterfaces.go:146-189 | At most one call is made, and it is exactly the planned rule on the load balancer's own name. When there is nothing to create or the plan fails, no call is made. The result is the plan's error or the create call's answer. |
| NetworkInterfaces.Allocation | cloud/services/networkinterfaces/networkinterfaces.go:41-45 | Allocation is static, with the requested address, exactly when an address is requested. Otherwise it is dynamic with no address. |
| NetworkInterfaces.PublicLoadBalancerStage | cloud/services/networkinterfaces/networkinterfaces.go:48-71 | With no public load balancer named, no calls are made. A failed fetch ends the stage with its error. A found balancer succeeds at once for a node machine. For a control-plane machine the NAT rule follows, and the stage fails exactly when that rule fails, with its error. On success the stage gives the first backend pool, and a NAT association `<lb id>/inboundNatRules/<machine>` exactly for a control-plane machine. Any NAT rule it creates is the one planned on that balancer. |
| NetworkInterfaces.InternalLoadBalancerStage | cloud/services/networkinterfaces/networkinterfaces.go:72-83 | With no internal load balancer named, no calls are made. Otherwise the stage makes one fetch, fails exactly when the fetch fails and with its error, and on success gives the first backend pool. |
| NetworkInterfaces.PublicIPStage | cloud/services/networkinterfaces/networkinterfaces.go:86-92 | With no public IP named, no calls are made. Otherwise the stage makes one fetch, fails exactly when the fetch fails and with its error, and on success attaches the fetched IP unchanged. |
| NetworkInterfaces.AcceleratedNetworkingStage | cloud/services/networkinterfaces/networkinterfaces.go:94-102 | A flag set in the spec is used as is, with no lookup. An unset flag is looked up by VM size, and a failed lookup is an error, never a default. |
| NetworkInterfaces.PublicLoadBalancerStageTrace | cloud/services/networkinterfaces/networkinterfaces.go:48-71 | The public load-balancer stage succeeds exactly when the balancer is found and, for a control-plane machine, its NAT rule exists or is planned and created. Every call but a failing last one succeeded. |
| NetworkInterfaces.LaterLookupStage | cloud/services/networkinterfaces/networkinterfaces.go:72-102 | The calls are load-balancer and IP fetches and the capability lookup. On success their values agree with the clients: the internal pool, the fetched IP, and the flag from the spec or, when unset, from the lookup. A flag set in the spec skips the lookup. |
| NetworkInterfaces.LaterLookupStageCalls | cloud/services/networkinterfaces/networkinterfaces.go:72-102 | The calls are exactly, in this order: the internal balancer fetch when it is named, the public IP fetch when it is named, and the capability lookup when the flag is unset. They are cut after the first fetch or lookup that fails. |
| NetworkInterfaces.LaterLookupStageTrace | cloud/services/networkinterfaces/networkinterfaces.go:72-102 | The later lookups succeed exactly when each named resource is found and an unset flag can be looked up. Every call but a failing last one succeeded, and the error is that last call's. |
| NetworkInterfaces.LookupStage | cloud/services/networkinterfaces/networkinterfaces.go:33-102 | The lookups start with the subnet and never create an interface. Any NAT rule created is the one planned on the public load balancer. A flag set in the spec skips the capability lookup. On success the gathered values agree with the cloud: the subnet id, the public then internal backend pools, a NAT association exactly for a control-plane machine behind a public load balancer, the public IP, and the accelerated-networking flag. |
| NetworkInterfaces.BalancerLookupStage | cloud/services/networkinterfaces/networkinterfaces.go:48-102 | Its calls never look up the subnet or create an interface, any NAT rule created is the planned one, and a flag set in the spec skips the capability lookup. On success, once the subnet is found, the gathered values agree with the clients. |
| NetworkInterfaces.BalancerLookupStageTrace | cloud/services/networkinterfaces/networkinterfaces.go:48-102 | Once the subnet is found, the lookups after it succeed exactly when every lookup is answered. Every call but a failing last one succeeded, and a failure is that call's error or the NAT rule plan's. |
| NetworkInterfaces.LookupStageCalls | cloud/services/networkinterfaces/networkinterfaces.go:33-102 | The calls are exactly the subnet lookup, then, once the subnet is found, the public load-balancer stage's calls, then, once that stage succeeds, the later lookups' calls. |
| NetworkInterfaces.LookupStageStopsAtFirstFailure | cloud/services/networkinterfaces/networkinterfaces.go:33-102 | The lookups succeed exactly when every one of them is answered. Every call but a failing last one succeeded. The error returned is that last call's, or the NAT rule plan's right after the public load balancer was fetched. |
| NetworkInterfaces.PerformInOrder | cloud/services/networkinterfaces/networkinterfaces.go:30-126 | Performing the iterations in order stops at the first one that fails. The calls made are exactly those of that iteration and the earlier ones, and with no failure they are all the iterations' calls. |
| NetworkInterfaces.ReconcileNic | cloud/services/networkinterfaces/networkinterfaces.go:33-122 | The subnet lookup is always the first call. Successful lookups always lead to the interface create, under the spec's name, as the last call, and every call before it is one of the lookups' calls, in order. Failed lookups end the iteration with their calls and error. |
| NetworkInterfaces.ReconcileNicStopsAtFirstFailure | cloud/services/networkinterfaces/networkinterfaces.go:33-122 | The interface is created exactly when every lookup is answered. The iteration succeeds exactly when, in addition, every call it made succeeded. A failure is the answer of its last call, or the NAT rule plan's. |
| NetworkInterfaces.ReconcileNicAfterLookups | cloud/services/networkinterfaces/networkinterfaces.go:104-122 | Once every lookup has succeeded, the create is the last call. The iteration succeeds exactly when that create also succeeds; otherwise it fails with the create's answer. |
| NetworkInterfaces.BuildInterfaceAssembles | cloud/services/networkinterfaces/networkinterfaces.go:104-118 | An interface built from lookups that agree with the clients has the requested location, the `pipConfig` configuration name, the requested allocation and the looked-up values. |
| NetworkInterfaces.ReconcileNicSendsAssembledInterface | cloud/services/networkinterfaces/networkinterfaces.go:33-122 | The interface is created at most once, as the last call, under the spec's name. It carries the subnet id, the allocation, the backend pools (public, then internal), the NAT association, the public IP, the accelerated-networking flag and the `pipConfig` name. Its answer is the iteration's result. |
| NetworkInterfaces.ReconcileNicNatRule | cloud/services/networkinterfaces/networkinterfaces.go:33-70 | A NAT rule is created only for a control-plane machine behind a public load balancer, and it is the rule planned on that balancer. Conversely, for a control-plane machine whose subnet and public load balancer are found and whose rule is planned, the first three calls are the subnet lookup, the balancer fetch and the create of exactly that rule. So it comes before any later lookup and before the interface. |
| NetworkInterfaces.PlannedRuleCreatedThird | cloud/services/networkinterfaces/networkinterfaces.go:33-70 | For such a machine the lookups begin with the subnet lookup, the balancer fetch and the planned rule's create. |
| NetworkInterfaces.ReconcileNicAcceleratedLookup | cloud/services/networkinterfaces/networkinterfaces.go:94-102 | The capability lookup is never made when the spec sets the flag. |
| NetworkInterfaces.DeleteNic | cloud/services/networkinterfaces/networkinterfaces.go:131-141 | The interface delete comes first. The NAT-rule delete is attempted exactly when that delete succeeded or found nothing. The iteration succeeds exactly when both answers are success or not-found. Not-found is never returned. A stop after the interface delete returns that delete's answer. Otherwise a failure is the NAT-rule delete's answer. |
| NetworkInterfaces.Reconcile | cloud/services/networkinterfaces/networkinterfaces.go:30-126 | Interfaces are reconciled in order. On success, every iteration's calls were made. Otherwise the first failing iteration's error is returned, after exactly the calls of that iteration and the earlier ones. |
| NetworkInterfaces.Delete | cloud/services/networkinterfaces/networkinterfaces.go:129-144 | The same stop-at-first-error shape over the delete iterations. A returned error is never not-found, and it is the clients' answer to the last delete made. |
| NetworkInterfaces.DeleteErrorIsLastAnswer | cloud/services/networkinterfaces/networkinterfaces.go:129-144 | A delete loop that stops on an error stops on the answer to its last call. |
| Services.Run | controllers/azurecluster_reconciler.go:79-209 | A fail-fast run makes at most the planned calls, and on success it made exactly the plan. |
| Services.RunStopsAtFirstRejection | controllers/azurecluster_reconciler.go:79-209 | A fail-fast sequence: calls are made in plan order with none skipped. Success means the whole plan was made and every answer accepted. A failure is the last call's own failed answer, and every earlier call was accepted. |
| Services.RunAppend | controllers/azurecluster_reconciler.go:213-252 | Running `a + b` is running `a` and, only if it succeeded, continuing with `b`. |
| Services.RunReachesExactly | controllers/azurecluster_reconciler.go:79-209 | The k-th planned call is made exactly when all earlier planned calls were accepted. |
| AzureCluster.CidrList | controllers/azurecluster_reconciler.go:83-86 | The CIDR list holds the IPv4 block first, followed by the IPv6 block exactly when IPv6 is enabled. |
| AzureCluster.AssignAPIServerIP | controllers/azurecluster_reconciler.go:321-329 | A configured name is kept, and an empty one is generated from the cluster name and the cluster hash. The DNS name always follows the final name and the location. Nothing else in the scope changes. |
| AzureCluster.AssignAPIServerIPIdempotent | controllers/azurecluster_reconciler.go:321-329 | Assigning twice gives the same scope as assigning once. |
| AzureCluster.GeneratedNameExample | controllers/azurecluster_reconciler.go:321-328 | Cluster "demo" in group "rg" of subscription "sub", with no name configured, gets the public IP name built from "demo" and the hash "f70641f5", and the DNS name for it. |
| AzureCluster.SetFailureDomains | controllers/azurecluster_reconciler.go:331-347 | Every zone is recorded as eligible for the control plane with no attributes. Existing entries for other names are kept unchanged, and none are removed. |
| AzureCluster.ReconcilePlan | controllers/azurecluster_reconciler.go:79-207 | The plan has 10 reconcile calls, or 12 when the cluster has IPv6 enabled. |
| AzureCluster.ReconcilePlanKinds | controllers/azurecluster_reconciler.go:79-207 | The kinds, in order: group, network, two security groups, route table, two subnets, internal load balancer, public IP, public load balancer, then a public IP and a public load balancer when IPv6 is on. |
| AzureCluster.ReconcilePlanSteps | controllers/azurecluster_reconciler.go:79-187 | The control-plane security group (flagged as such) precedes the node's. The node route table comes next. The control-plane subnet precedes the node subnet, each with its own role, security group and route table, and the control-plane subnet with its internal load-balancer address. The internal load balancer sits on the control-plane subnet. The API-server IP, with its DNS name, precedes the API-server load balancer that names it. |
| AzureCluster.Reconcile | controllers/azurecluster_reconciler.go:71-210 | The API-server IP is assigned before anything else and is kept even on failure. A zone-listing error aborts the pass before any service call, leaving the failure domains untouched. Otherwise zones are recorded and the plan runs in order to its first error. Success means every planned call was made and succeeded. Only the API-server IP and the failure domains are written back. |
| AzureCluster.EgressPairOnlyWithIPv6 | controllers/azurecluster_reconciler.go:186-207 | The egress load balancer is reconciled exactly when IPv6 is enabled, after the API-server pair. The first 10 steps do not depend on the flag. |
| AzureCluster.EgressIPNameExample | controllers/azurecluster_reconciler.go:187-190 | The egress public IP of the same cluster is named from the prefix "cluster" and the hash "f70641f5", whatever the API-server IP is called. |
| AzureCluster.CidrsFollowVnetIPv6 | controllers/azurecluster_reconciler.go:83-155 | The network and both subnets get their IPv4 block first. They get their IPv6 block second exactly when the virtual network has IPv6 enabled. |
| AzureCluster.ReconcileCreatesReferencesFirst | controllers/azurecluster_reconciler.go:79-207 | Everything a reconcile call names is reconciled by an earlier call: resource group, network, security groups, route table, control-plane subnet and public IPs. |
| AzureCluster.DeleteSubnetsPlan | controllers/azurecluster_reconciler.go:284-297 | One delete per subnet of the scope, in order, naming the subnet and the network. |
| AzureCluster.DeletePlan | controllers/azurecluster_reconciler.go:213-318 | The delete order: public load balancer, API-server IP, internal load balancer, every subnet, node route table, node then control-plane security group, network, resource group. The steps of `deleteLB` (lines 254-282) are `AzureCluster.DeleteLBPlan` and those of `deleteNSG` (lines 299-318) are `AzureCluster.DeleteNSGPlan`. |
| AzureCluster.RunStages | controllers/azurecluster_reconciler.go:212-252 | Delete runs its helpers as nested stages: success means every stage ran to its end without error, and a failure is some stage's failure. |
| AzureCluster.RunStagesIsRunConcat | controllers/azurecluster_reconciler.go:213-318 | The nested helpers, each returning at its first error, behave exactly as one fail-fast run of the concatenated plan. |
| AzureCluster.Delete | controllers/azurecluster_reconciler.go:213-252 | Deletes run in plan order, and not-found is tolerated at every step. Any other error ends the pass and is returned. Success means every planned delete was attempted and each succeeded or found nothing. |
| AzureCluster.DeleteRemovesDependentsFirst | controllers/azurecluster_reconciler.go:213-318 | No resource is deleted while a resource of a kind that depends on it is still to be deleted. |
| AzureCluster.DeleteTargets | controllers/azurecluster_reconciler.go:254-282 | The only public IP deleted is the API server's. The only load balancers deleted are those named after the cluster. |

## Left out

- I/O, the request context and logging are not modelled. Remote clients are oracles from request to answer, and calls are recorded as traces.
- Error message texts and their wrapping are not modelled. Only the kind of error is kept: not-found, provider, config or capacity.
- Constructing the reconciler from its services (controllers/azurecluster_reconciler.go:55-68) is not modelled. The services are the `respond` oracle.
- The resource services behind the orchestrator are not part of this model. That covers groups, virtual networks, security groups, route tables, subnets, load balancers, public IPs and availability zones. Their calls are recorded with the specs they receive.
- The scope accessors are not part of this model: `Vnet`, `ControlPlaneSubnet`, `NodeSubnet`, `Subnets`, `IsIPV6Enabled` and `SetFailureDomain`. They are modelled as fields of `ClusterScope`, and `SetFailureDomain` as a map update that overwrites.
- The name templates are not part of this model: `GeneratePublicIPName`, `GeneratePublicLBName`, `GenerateInternalLBName` and `GenerateFQDN`. They are uninterpreted functions in `Naming.Templates`.
- Collision resistance of the FNV-1a name hash is not proved. The model computes the hash exactly, but no injectivity property is stated.
- The resource group of the network-interface service's calls is left implicit for all calls except the subnet lookup, which carries the interface's own network resource group (networkinterfaces.go:35).
- The flag written back at cloud/services/networkinterfaces/networkinterfaces.go:101 is not modelled. It is used only for the interface being created.
- Ports are `int32` in the source. They are unbounded integers here because every port involved is below 2220.
- A rule whose frontend port is nil would make the source dereference nil (networkinterfaces.go:158). The model assumes every rule has a port.
- Concurrent passes are not modelled: each pass sees one fixed set of answers.
- NetworkInterfaces.LoadBalancersUsable: the unchecked `[0]` indexes (networkinterfaces.go:55, 81, 181) are preconditions. The model does not reproduce the panic they would cause.
- NetworkInterfaces.Reconcile: requires `LoadBalancersUsable` of every spec, although the source only reaches the specs up to the first failing one.
- AzureCluster.ReconcileCreatesReferencesFirst: requires the control-plane subnet to name the node route table or none, because only the node route table is reconciled.
- AzureCluster.ReconcilePlan: its own contract states only the length and the call kind. The other facts are stated by lemmas:
  - the order of kinds and the step-by-step resources, by `AzureCluster.ReconcilePlanKinds` and `AzureCluster.ReconcilePlanSteps`;
  - the egress pair, by `AzureCluster.EgressPairOnlyWithIPv6`;
  - the CIDR lists, by `AzureCluster.CidrsFollowVnetIPv6`;
  - the references, by `AzureCluster.ReconcileCreatesReferencesFirst`.

  The remaining spec fields of the network and the internal load balancer are fixed only by its body.

=== FILE: cluster.dfy ===
/** The cluster orchestrator: the ordered Reconcile and Delete sequences over
    the resource services, the derived values it writes back onto the
    cluster scope (API-server IP name and DNS name, failure domains), and
    the order in which resources are created and removed. */
module AzureCluster {
  import opened Outcomes
  import opened Naming
  import opened Services

  /** The name prefix of the control plane's load balancers on Reconcile. */
  const ControlPlanePrefix := "control-plane"
  /** The name prefix of the IPv6 egress public IP and load balancer. */
  const EgressPrefix := "cluster"

  datatype VnetSpec = VnetSpec(
    resourceGroup: string,
    name: string,
    cidrBlock: string,
    ipv6CidrBlock: string,
    ipv6Enabled: bool)

  datatype SubnetSpec = SubnetSpec(
    role: string,
    name: string,
    cidrBlock: string,
    ipv6CidrBlock: string,
    securityGroupName: string,
    routeTableName: string,
    internalLBIPAddress: string)

  datatype PublicIPSpec = PublicIPSpec(name: string, dnsName: string)

  datatype FailureDomain = FailureDomain(controlPlane: bool, attributes: map<string, string>)

  /** The domain recorded for every discovered zone. */
  const ControlPlaneDomain := FailureDomain(true, map[])

  /** The shared scope the orchestrator reads its desired state from and
      writes its derived values back to. The cluster-wide IPv6 flag and the
      virtual network's own IPv6 flag are distinct inputs. */
  datatype ClusterScope = ClusterScope(
    name: string,
    subscriptionId: string,
    resourceGroup: string,
    location: string,
    vnet: VnetSpec,
    controlPlaneSubnet: SubnetSpec,
    nodeSubnet: SubnetSpec,
    subnets: seq<SubnetSpec>,
    apiServerIP: PublicIPSpec,
    ipv6Enabled: bool,
    failureDomains: map<string, FailureDomain>)

  /** The collaborators as seen from one pass: the zone listing's answer and
      the answer of every service call. */
  datatype ClusterCloud = ClusterCloud(zones: Result<seq<string>>, respond: Call -> Status)

  // ---------------------------------------------------------------------
  // Derived values
  // ---------------------------------------------------------------------

  /** The CIDR list of a network or subnet: the IPv4 block, followed by the
      IPv6 block when the network has IPv6 enabled. */
  function CidrList(ipv4: string, ipv6: string, ipv6Enabled: bool): (cidrs: seq<string>)
    ensures |cidrs| == (if ipv6Enabled then 2 else 1)
    ensures cidrs[0] == ipv4
    ensures ipv6Enabled ==> cidrs[1] == ipv6
  {
    [ipv4] + (if ipv6Enabled then [ipv6] else [])
  }

  /** The hash that makes generated public IP names unique per cluster. */
  function ScopeHash(scope: ClusterScope): (h: string)
    ensures 1 <= |h| <= 8
  {
    ClusterHash(scope.subscriptionId, scope.resourceGroup, scope.name)
  }

  /** The name of the IPv6 egress public IP. */
  function EgressIPName(scope: ClusterScope, t: Templates): string {
    t.publicIPName(EgressPrefix, ScopeHash(scope))
  }

  /** The egress IP of cluster "demo" in group "rg" of subscription "sub"
      is named from the prefix "cluster" and the hash "f70641f5", whatever
      name the API-server IP has. */
  lemma EgressIPNameExample(scope: ClusterScope, t: Templates)
    requires scope.subscriptionId == "sub" && scope.resourceGroup == "rg" && scope.name == "demo"
    ensures EgressIPName(scope, t) == t.publicIPName("cluster", "f70641f5")
  {
    ClusterHashExample();
  }

  /** Names the API-server public IP when it has no name yet, and derives its
      DNS name from whatever name it then has. Nothing else changes. */
  function AssignAPIServerIP(scope: ClusterScope, t: Templates): (s: ClusterScope)
    // an explicitly configured name is kept
    ensures scope.apiServerIP.name != "" ==> s.apiServerIP.name == scope.apiServerIP.name
    // a missing name is generated from the cluster name and the scope hash
    ensures scope.apiServerIP.name == "" ==>
      s.apiServerIP.name == t.publicIPName(scope.name, ScopeHash(scope))
    // the DNS name always follows the final name and the location
    ensures s.apiServerIP.dnsName == t.fqdn(s.apiServerIP.name, scope.location)
    ensures s == scope.(apiServerIP := s.apiServerIP)
  {
    var name :=
      if scope.apiServerIP.name == "" then t.publicIPName(scope.name, ScopeHash(scope))
      else scope.apiServerIP.name;
    scope.(apiServerIP := PublicIPSpec(name, t.fqdn(name, scope.location)))
  }

  /** Assigning the API-server IP is idempotent, so a retried pass writes the
      same values again. */
  lemma AssignAPIServerIPIdempotent(scope: ClusterScope, t: Templates)
    ensures AssignAPIServerIP(AssignAPIServerIP(scope, t), t) == AssignAPIServerIP(scope, t)
  {
  }

  /** A worked generation: cluster "demo" in group "rg" of subscription
      "sub", with no name configured, gets the public IP name the template
      builds from "demo" and the hash "f70641f5", and a DNS name for it. */
  lemma GeneratedNameExample(scope: ClusterScope, t: Templates)
    requires scope.subscriptionId == "sub" && scope.resourceGroup == "rg" && scope.name == "demo"
    requires scope.apiServerIP.name == ""
    ensures AssignAPIServerIP(scope, t).apiServerIP ==
      PublicIPSpec(t.publicIPName("demo", "f70641f5"), t.fqdn(t.publicIPName("demo", "f70641f5"), scope.location))
  {
    ClusterHashExample();
  }

  /** The failure domains after recording `zones`: every zone is present and
      eligible for the control plane, and no other entry is added, removed
      or changed. */
  ghost predicate RecordsZones(before: map<string, FailureDomain>, zones: seq<string>,
                               after: map<string, FailureDomain>)
  {
    && after.Keys == before.Keys + (set z | z in zones)
    && (forall z :: z in zones ==> after[z] == ControlPlaneDomain)
    && (forall k :: k in before && k !in zones ==> after[k] == before[k])
  }

  /** Records every discovered zone as a control-plane failure domain. */
  method SetFailureDomains(domains: map<string, FailureDomain>, zones: seq<string>)
    returns (r: map<string, FailureDomain>)
    ensures RecordsZones(domains, zones, r)
    ensures domains.Keys <= r.Keys
  {
    r := domains;
    for i := 0 to |zones|
      invariant r.Keys == domains.Keys + (set z | z in zones[..i])
      invariant forall z :: z in zones[..i] ==> r[z] == ControlPlaneDomain
      invariant forall k :: k in domains && k !in zones[..i] ==> r[k] == domains[k]
    {
      assert zones[..i + 1] == zones[..i] + [zones[i]];
      r := r[zones[i] := ControlPlaneDomain];
    }
    assert zones[..|zones|] == zones;
  }

  // ---------------------------------------------------------------------
  // Reconcile
  // ---------------------------------------------------------------------

  /** The service calls of a Reconcile pass, in order, for a scope whose
      API-server IP has already been assigned. */
  function ReconcilePlan(scope: ClusterScope, t: Templates): (plan: seq<Call>)
    ensures |plan| == if scope.ipv6Enabled then 12 else 10
    ensures forall i :: 0 <= i < |plan| ==> plan[i].ReconcileCall?
  {
    var vnet := scope.vnet;
    var cp := scope.controlPlaneSubnet;
    var node := scope.nodeSubnet;
    var ip := scope.apiServerIP;
    [ ReconcileCall(Group),
      ReconcileCall(VirtualNetwork(vnet.resourceGroup, vnet.name,
        CidrList(vnet.cidrBlock, vnet.ipv6CidrBlock, vnet.ipv6Enabled))),
      ReconcileCall(SecurityGroup(cp.securityGroupName, true)),
      ReconcileCall(SecurityGroup(node.securityGroupName, false)),
      ReconcileCall(RouteTable(node.routeTableName)),
      ReconcileCall(Subnet(cp.name, CidrList(cp.cidrBlock, cp.ipv6CidrBlock, vnet.ipv6Enabled),
        vnet.name, cp.securityGroupName, cp.role, cp.routeTableName, cp.internalLBIPAddress)),
      ReconcileCall(Subnet(node.name, CidrList(node.cidrBlock, node.ipv6CidrBlock, vnet.ipv6Enabled),
        vnet.name, node.securityGroupName, node.role, node.routeTableName, "")),
      ReconcileCall(InternalLB(t.internalLBName(ControlPlanePrefix), cp.name, cp.cidrBlock,
        vnet.name, cp.internalLBIPAddress)),
      ReconcileCall(PublicIP(ip.name, ip.dnsName, false)),
      ReconcileCall(PublicLB(t.publicLBName(ControlPlanePrefix), ip.name, true)) ]
    + (if scope.ipv6Enabled then
        [ ReconcileCall(PublicIP(EgressIPName(scope, t), "", false)),
          ReconcileCall(PublicLB(t.publicLBName(EgressPrefix), EgressIPName(scope, t), false)) ]
      else [])
  }

  /** One Reconcile pass. The API-server IP is assigned first and kept even
      when the pass fails; the zone listing comes next and its failure aborts
      the pass before any service is called; then the plan runs and stops at
      the first error. */
  method Reconcile(scope: ClusterScope, t: Templates, cloud: ClusterCloud)
    returns (result: ClusterScope, trace: seq<Call>, error: Option<Error>)
    // only the API-server IP and the failure domains are written back
    ensures result == AssignAPIServerIP(scope, t).(failureDomains := result.failureDomains)
    ensures |trace| >= 1 && trace[0] == ListZones
    ensures cloud.zones.Err? ==>
      trace == [ListZones] && error == Some(cloud.zones.error)
      && result.failureDomains == scope.failureDomains
    ensures cloud.zones.Ok? ==>
      RecordsZones(scope.failureDomains, cloud.zones.value, result.failureDomains)
    // the service calls made are a prefix of the plan for the updated scope
    ensures cloud.zones.Ok? ==> trace[1..] <= ReconcilePlan(result, t)
    // every service call but a failing last one succeeded
    ensures forall i :: 1 <= i < |trace| && (error.None? || i < |trace| - 1) ==>
      cloud.respond(trace[i]).Done?
    // the pass fails with exactly the error of its last call
    ensures cloud.zones.Ok? && error.Some? ==>
      cloud.respond(trace[|trace| - 1]) == Failed(error.value)
    // success means every planned call was made and succeeded
    ensures cloud.zones.Ok? ==>
      (error.None? <==>
        (trace[1..] == ReconcilePlan(result, t)
         && forall c :: c in trace[1..] ==> cloud.respond(c).Done?))
  {
    result := AssignAPIServerIP(scope, t);
    match cloud.zones
    case Err(e) =>
      trace := [ListZones];
      error := Some(e);
    case Ok(zones) =>
      var domains := SetFailureDomains(result.failureDomains, zones);
      result := result.(failureDomains := domains);
      var run := Run(ReconcilePlan(result, t), cloud.respond, false);
      RunStopsAtFirstRejection(ReconcilePlan(result, t), cloud.respond, false);
      trace := [ListZones] + run.trace;
      error := run.error;
      assert trace[1..] == run.trace;
      if error.Some? {
        var last := |run.trace| - 1;
        assert !Accepted(cloud.respond(run.trace[last]), false);
        assert !(forall c :: c in run.trace ==> cloud.respond(c).Done?);
      }
  }

  /** The kinds Reconcile goes through, in order: the group, the network,
      two security groups, the route table, two subnets, the internal load
      balancer, the API server's public IP and load balancer, then the
      egress pair when IPv6 is on. */
  function ReconcileKindOrder(ipv6Enabled: bool): seq<Kind> {
    [ ResourceGroups, VirtualNetworks, SecurityGroups, SecurityGroups, RouteTables, Subnets, Subnets,
      InternalLoadBalancers, PublicIPs, PublicLoadBalancers ]
    + (if ipv6Enabled then [PublicIPs, PublicLoadBalancers] else [])
  }

  /** The plan follows `ReconcileKindOrder`. */
  lemma ReconcilePlanKinds(scope: ClusterScope, t: Templates)
    ensures Kinds(ReconcilePlan(scope, t)) == ReconcileKindOrder(scope.ipv6Enabled)
  {
    ReconcilePlanSteps(scope, t);
    var plan := ReconcilePlan(scope, t);
    var ks := Kinds(plan);
    var want := ReconcileKindOrder(scope.ipv6Enabled);
    forall i | 0 <= i < |ks|
      ensures ks[i] == want[i]
    {
      assert ks[i] == SpecKind(plan[i].spec);
    }
  }

  /** The control plane's security group comes before the node's, the
      control-plane subnet before the node subnet, the internal load
      balancer sits on the control-plane subnet, and the API server's public
      IP comes before its load balancer. */
  lemma ReconcilePlanSteps(scope: ClusterScope, t: Templates)
    ensures var plan := ReconcilePlan(scope, t);
      var cp := scope.controlPlaneSubnet;
      var node := scope.nodeSubnet;
      && plan[0].spec == Group
      && plan[1].spec.VirtualNetwork? && plan[1].spec.name == scope.vnet.name
      && plan[2].spec == SecurityGroup(cp.securityGroupName, true)
      && plan[3].spec == SecurityGroup(node.securityGroupName, false)
      && plan[4].spec == RouteTable(node.routeTableName)
      && plan[5].spec.Subnet? && plan[5].spec.name == cp.name && plan[5].spec.role == cp.role
      && plan[5].spec.securityGroupName == cp.securityGroupName
      && plan[5].spec.routeTableName == cp.routeTableName
      && plan[5].spec.internalLBIPAddress == cp.internalLBIPAddress
      && plan[6].spec.Subnet? && plan[6].spec.name == node.name && plan[6].spec.role == node.role
      && plan[6].spec.securityGroupName == node.securityGroupName
      && plan[6].spec.routeTableName == node.routeTableName
      && plan[7].spec.InternalLB? && plan[7].spec.name == t.internalLBName(ControlPlanePrefix)
      && plan[7].spec.subnetName == cp.name
      && plan[8].spec == PublicIP(scope.apiServerIP.name, scope.apiServerIP.dnsName, false)
      && plan[9].spec == PublicLB(t.publicLBName(ControlPlanePrefix), scope.apiServerIP.name, true)
      && (scope.ipv6Enabled ==> plan[10].spec.PublicIP? && plan[11].spec.PublicLB?)
  {
  }

  /** The egress public IP and load balancer are reconciled exactly when the
      cluster has IPv6 enabled, and only after the API-server pair; the rest
      of the plan does not depend on the flag. */
  lemma EgressPairOnlyWithIPv6(scope: ClusterScope, t: Templates)
    ensures var plan := ReconcilePlan(scope, t);
      ReconcileCall(PublicLB(t.publicLBName(EgressPrefix), EgressIPName(scope, t), false)) in plan
      <==> scope.ipv6Enabled
    ensures forall b: bool :: ReconcilePlan(scope.(ipv6Enabled := b), t)[..10] == ReconcilePlan(scope, t)[..10]
    ensures scope.ipv6Enabled ==>
      ReconcilePlan(scope, t)[10..] ==
        [ ReconcileCall(PublicIP(EgressIPName(scope, t), "", false)),
          ReconcileCall(PublicLB(t.publicLBName(EgressPrefix), EgressIPName(scope, t), false)) ]
  {
    var plan := ReconcilePlan(scope, t);
    var egress := ReconcileCall(PublicLB(t.publicLBName(EgressPrefix), EgressIPName(scope, t), false));
    if !scope.ipv6Enabled {
      forall i | 0 <= i < |plan|
        ensures plan[i] != egress
      {
        if i == 9 {
          assert plan[i].spec.isAPIServer;
        }
      }
    } else {
      assert plan[11] == egress;
    }
  }

  /** The network and subnet CIDR lists carry the IPv6 block exactly when
      the virtual network has IPv6 enabled. */
  lemma CidrsFollowVnetIPv6(scope: ClusterScope, t: Templates)
    ensures var plan := ReconcilePlan(scope, t);
      && plan[1].spec.cidrs[0] == scope.vnet.cidrBlock
      && plan[5].spec.cidrs[0] == scope.controlPlaneSubnet.cidrBlock
      && plan[6].spec.cidrs[0] == scope.nodeSubnet.cidrBlock
      && (scope.vnet.ipv6Enabled <==> |plan[1].spec.cidrs| == 2)
      && (scope.vnet.ipv6Enabled <==> |plan[5].spec.cidrs| == 2)
      && (scope.vnet.ipv6Enabled <==> |plan[6].spec.cidrs| == 2)
      && (scope.vnet.ipv6Enabled ==>
            && plan[1].spec.cidrs[1] == scope.vnet.ipv6CidrBlock
            && plan[5].spec.cidrs[1] == scope.controlPlaneSubnet.ipv6CidrBlock
            && plan[6].spec.cidrs[1] == scope.nodeSubnet.ipv6CidrBlock)
  {
  }

  // ---------------------------------------------------------------------
  // References between reconciled resources
  // ---------------------------------------------------------------------

  /** A resource, identified by its kind and name. */
  datatype Ref = Ref(kind: Kind, name: string)

  /** The cluster's resource group, which every other resource lives in. */
  const GroupRef := Ref(ResourceGroups, "")

  /** The resource a reconcile spec creates or updates. */
  function Creates(s: Spec): Ref {
    if s.Group? then GroupRef else Ref(SpecKind(s), s.name)
  }

  /** The resources a spec names and which must therefore exist first. A
      subnet's route table is optional and an empty name is no reference. */
  function Refs(s: Spec): set<Ref> {
    match s
    case Group => {}
    case VirtualNetwork(_, _, _) => {GroupRef}
    case SecurityGroup(_, _) => {GroupRef}
    case RouteTable(_) => {GroupRef}
    case Subnet(_, _, vnetName, securityGroupName, _, routeTableName, _) =>
      {GroupRef, Ref(VirtualNetworks, vnetName), Ref(SecurityGroups, securityGroupName)}
      + (if routeTableName == "" then {} else {Ref(RouteTables, routeTableName)})
    case InternalLB(_, subnetName, _, vnetName, _) =>
      {GroupRef, Ref(VirtualNetworks, vnetName), Ref(Subnets, subnetName)}
    case PublicIP(_, _, _) => {GroupRef}
    case PublicLB(_, publicIPName, _) => {GroupRef, Ref(PublicIPs, publicIPName)}
  }

  /** Every resource a reconcile call names was reconciled by an earlier
      call of the same sequence. */
  ghost predicate ReferencesCreatedEarlier(plan: seq<Call>)
    requires forall i :: 0 <= i < |plan| ==> plan[i].ReconcileCall?
  {
    forall j, r :: 0 <= j < |plan| && r in Refs(plan[j].spec) ==>
      exists i :: 0 <= i < j && Creates(plan[i].spec) == r
  }

  /** Reconcile creates everything before it is referred to. Only the node
      subnet's route table is reconciled, so the control-plane subnet must
      name that one or none. */
  lemma ReconcileCreatesReferencesFirst(scope: ClusterScope, t: Templates)
    requires scope.controlPlaneSubnet.routeTableName == ""
      || scope.controlPlaneSubnet.routeTableName == scope.nodeSubnet.routeTableName
    ensures ReferencesCreatedEarlier(ReconcilePlan(scope, t))
  {
    var plan := ReconcilePlan(scope, t);
    forall j, r | 0 <= j < |plan| && r in Refs(plan[j].spec)
      ensures exists i :: 0 <= i < j && Creates(plan[i].spec) == r
    {
      var i := ReferenceCreatedAt(scope, t, j, r);
    }
  }

  /** The step of the plan that creates what step `j` refers to as `r`. */
  lemma ReferenceCreatedAt(scope: ClusterScope, t: Templates, j: nat, r: Ref) returns (i: nat)
    requires scope.controlPlaneSubnet.routeTableName == ""
      || scope.controlPlaneSubnet.routeTableName == scope.nodeSubnet.routeTableName
    requires j < |ReconcilePlan(scope, t)| && r in Refs(ReconcilePlan(scope, t)[j].spec)
    ensures i < j && Creates(ReconcilePlan(scope, t)[i].spec) == r
  {
    var plan := ReconcilePlan(scope, t);
    if j == 0 {
      assert false;
    } else if r == GroupRef {
      i := 0;
    } else if j == 5 || j == 6 {
      i := SubnetReferenceCreatedAt(scope, t, j, r);
    } else if j == 7 {
      i := if r.kind == VirtualNetworks then 1 else 5;
    } else if j == 9 || j == 11 {
      i := j - 1;
    } else {
      // the other steps refer to the resource group only
      assert false;
    }
  }

  /** A subnet's network, security group and route table come before it. */
  lemma SubnetReferenceCreatedAt(scope: ClusterScope, t: Templates, j: nat, r: Ref) returns (i: nat)
    requires scope.controlPlaneSubnet.routeTableName == ""
      || scope.controlPlaneSubnet.routeTableName == scope.nodeSubnet.routeTableName
    requires j == 5 || j == 6
    requires r in Refs(ReconcilePlan(scope, t)[j].spec) && r != GroupRef
    ensures i < j && Creates(ReconcilePlan(scope, t)[i].spec) == r
  {
    i := if r.kind == VirtualNetworks then 1 else if r.kind == SecurityGroups then j - 3 else 4;
  }

  // ---------------------------------------------------------------------
  // Delete
  // ---------------------------------------------------------------------

  /** The load balancers and the API-server public IP. Their names derive
      from the cluster name, not from the prefix Reconcile uses. */
  function DeleteLBPlan(scope: ClusterScope, t: Templates): seq<Call> {
    [ DeleteCall(PublicLB(t.publicLBName(scope.name), "", false)),
      DeleteCall(PublicIP(scope.apiServerIP.name, "", false)),
      DeleteCall(InternalLB(t.internalLBName(scope.name), "", "", "", "")) ]
  }

  /** Every subnet of the scope, in order. */
  function DeleteSubnetsPlan(scope: ClusterScope): (plan: seq<Call>)
    ensures |plan| == |scope.subnets|
    ensures forall i :: 0 <= i < |plan| ==>
      plan[i] == DeleteCall(Subnet(scope.subnets[i].name, [], scope.vnet.name, "", "", "", ""))
  {
    seq(|scope.subnets|, i requires 0 <= i < |scope.subnets| =>
      DeleteCall(Subnet(scope.subnets[i].name, [], scope.vnet.name, "", "", "", "")))
  }

  /** The node security group, then the control plane's. */
  function DeleteNSGPlan(scope: ClusterScope): seq<Call> {
    [ DeleteCall(SecurityGroup(scope.nodeSubnet.securityGroupName, false)),
      DeleteCall(SecurityGroup(scope.controlPlaneSubnet.securityGroupName, false)) ]
  }

  /** The steps of Delete, each stopping the whole call on its first
      intolerable error: the load-balancer helper, the subnet helper, the
      node route table, the security-group helper, the network, the group. */
  function DeleteStages(scope: ClusterScope, t: Templates): seq<seq<Call>> {
    [ DeleteLBPlan(scope, t),
      DeleteSubnetsPlan(scope),
      [DeleteCall(RouteTable(scope.nodeSubnet.routeTableName))],
      DeleteNSGPlan(scope),
      [DeleteCall(VirtualNetwork(scope.vnet.resourceGroup, scope.vnet.name, []))],
      [DeleteCall(Group)] ]
  }

  function Concat(stages: seq<seq<Call>>): seq<Call>
    decreases |stages|
  {
    if |stages| == 0 then [] else stages[0] + Concat(stages[1..])
  }

  /** The delete calls in the order they are attempted. */
  function DeletePlan(scope: ClusterScope, t: Templates): (plan: seq<Call>)
    ensures plan == DeleteLBPlan(scope, t) + DeleteSubnetsPlan(scope)
      + [DeleteCall(RouteTable(scope.nodeSubnet.routeTableName))] + DeleteNSGPlan(scope)
      + [DeleteCall(VirtualNetwork(scope.vnet.resourceGroup, scope.vnet.name, [])), DeleteCall(Group)]
  {
    var st := DeleteStages(scope, t);
    assert Concat(st[5..]) == st[5];
    assert Concat(st[4..]) == st[4] + Concat(st[5..]);
    assert Concat(st[3..]) == st[3] + Concat(st[4..]);
    assert Concat(st[2..]) == st[2] + Concat(st[3..]);
    assert Concat(st[1..]) == st[1] + Concat(st[2..]);
    Concat(st)
  }

  /** Nested fail-fast stages: each stage runs to its own first error, and a
      failing stage ends the whole sequence. */
  function RunStages(stages: seq<seq<Call>>, respond: Call -> Status, tolerateNotFound: bool): (r: Outcome)
    // success means every stage ran to its end without error
    ensures r.error.None? ==> forall k :: 0 <= k < |stages| ==> Run(stages[k], respond, tolerateNotFound).error.None?
    // a failure is some stage's failure
    ensures r.error.Some? ==>
      exists k :: 0 <= k < |stages| && Run(stages[k], respond, tolerateNotFound).error == r.error
    decreases |stages|
  {
    if |stages| == 0 then Outcome([], None)
    else
      var first := Run(stages[0], respond, tolerateNotFound);
      if first.error.Some? then first
      else
        var rest := RunStages(stages[1..], respond, tolerateNotFound);
        Outcome(stages[0] + rest.trace, rest.error)
  }

  /** Running the stages one after another is running their concatenation. */
  lemma {:induction false} RunStagesIsRunConcat(stages: seq<seq<Call>>, respond: Call -> Status, tolerateNotFound: bool)
    ensures RunStages(stages, respond, tolerateNotFound) == Run(Concat(stages), respond, tolerateNotFound)
    decreases |stages|
  {
    if |stages| > 0 {
      RunAppend(stages[0], Concat(stages[1..]), respond, tolerateNotFound);
      RunStagesIsRunConcat(stages[1..], respond, tolerateNotFound);
    }
  }

  /** One Delete pass. Not-found answers count as success; any other error
      ends the pass and is returned. */
  function Delete(scope: ClusterScope, t: Templates, respond: Call -> Status): (r: Outcome)
    // only planned calls, in plan order, none skipped
    ensures r.trace <= DeletePlan(scope, t)
    // a resource already gone is never an error
    ensures r.error.Some? ==> r.error.value != NotFound
    ensures r.error.Some? ==>
      |r.trace| > 0 && respond(r.trace[|r.trace| - 1]) == Failed(r.error.value)
    // every call made but a failing last one succeeded or found nothing
    ensures forall i :: 0 <= i < |r.trace| && (r.error.None? || i < |r.trace| - 1) ==>
      DeleteTolerates(respond(r.trace[i]))
    // success means every planned delete was attempted and tolerated
    ensures r.error.None? <==>
      (r.trace == DeletePlan(scope, t) && forall c :: c in r.trace ==> DeleteTolerates(respond(c)))
  {
    var stages := DeleteStages(scope, t);
    RunStagesIsRunConcat(stages, respond, true);
    RunStopsAtFirstRejection(Concat(stages), respond, true);
    RunStages(stages, respond, true)
  }

  /** The kinds Delete removes, for `n` subnets: the public load balancer,
      its IP, the internal load balancer, the subnets, the route table, two
      security groups, the network, the group. */
  ghost predicate DeleteKindOrder(ks: seq<Kind>, n: nat) {
    && |ks| == n + 8
    && ks[0] == PublicLoadBalancers && ks[1] == PublicIPs && ks[2] == InternalLoadBalancers
    && (forall k :: 3 <= k < 3 + n ==> ks[k] == Subnets)
    && ks[n + 3] == RouteTables && ks[n + 4] == SecurityGroups && ks[n + 5] == SecurityGroups
    && ks[n + 6] == VirtualNetworks && ks[n + 7] == ResourceGroups
  }

  lemma DeletePlanKinds(scope: ClusterScope, t: Templates)
    ensures DeleteKindOrder(Kinds(DeletePlan(scope, t)), |scope.subnets|)
  {
  }

  lemma DeleteKindOrderRespectsDependencies(ks: seq<Kind>, n: nat)
    requires DeleteKindOrder(ks, n)
    ensures DependentsFirst(ks)
  {
    forall i, j | 0 <= i < j < |ks|
      ensures !DependsOn(ks[j], ks[i])
    {
      if j < 3 + n && i >= 3 {
        assert ks[i] == Subnets && ks[j] == Subnets;
      }
    }
  }

  /** Delete removes every resource before anything it depends on. */
  lemma DeleteRemovesDependentsFirst(scope: ClusterScope, t: Templates)
    ensures DependentsFirst(Kinds(DeletePlan(scope, t)))
  {
    DeletePlanKinds(scope, t);
    DeleteKindOrderRespectsDependencies(Kinds(DeletePlan(scope, t)), |scope.subnets|);
  }

  /** The only public IP Delete removes is the API server's, and the only
      load balancers it removes are named after the cluster. */
  lemma DeleteTargets(scope: ClusterScope, t: Templates)
    ensures forall c :: c in DeletePlan(scope, t) && c.spec.PublicIP? ==>
      c.spec.name == scope.apiServerIP.name
    ensures forall c :: c in DeletePlan(scope, t) && c.spec.PublicLB? ==>
      c.spec.name == t.publicLBName(scope.name)
    ensures forall c :: c in DeletePlan(scope, t) && c.spec.InternalLB? ==>
      c.spec.name == t.internalLBName(scope.name)
  {
  }
}

=== FILE: inbound_nat.dfy ===
/** Inbound NAT rules on a load balancer, and the choice of a frontend port
    for a new SSH rule: port 22 when it is free, else the first free port of
    the fixed range 2201..2219, else the range is exhausted. */
module InboundNat {
  import opened Outcomes

  /** The SSH port every rule forwards to, and the default frontend port. */
  const SshPort := 22
  /** The fallback range is [FirstAlternatePort, EndAlternatePort). */
  const FirstAlternatePort := 2201
  const EndAlternatePort := 2220

  /** An existing rule, as far as allocation looks at it: its name and the
      frontend port it occupies. */
  datatype InboundNatRule = InboundNatRule(name: string, frontendPort: int)

  /** The parts of a load balancer's properties the reconciler reads. The
      rule list can be absent (a nil slice pointer in the provider's API). */
  datatype LoadBalancerProperties = LoadBalancerProperties(
    frontendIPConfigurationIds: seq<string>,
    backendPoolIds: seq<string>,
    inboundNatRules: Option<seq<InboundNatRule>>)

  datatype LoadBalancer = LoadBalancer(
    id: string,
    name: string,
    properties: Option<LoadBalancerProperties>)

  datatype TransportProtocol = Tcp | Udp | All

  /** The rule the reconciler asks the provider to create. */
  datatype NatRuleSpec = NatRuleSpec(
    name: string,
    backendPort: int,
    enableFloatingIP: bool,
    idleTimeoutInMinutes: int,
    frontendIPConfigurationId: string,
    protocol: TransportProtocol,
    frontendPort: int)

  predicate HasRuleNamed(rules: seq<InboundNatRule>, name: string) {
    exists i :: 0 <= i < |rules| && rules[i].name == name
  }

  /** The set of frontend ports the existing rules occupy. */
  function UsedPorts(rules: seq<InboundNatRule>): (ports: set<int>)
    ensures forall i :: 0 <= i < |rules| ==> rules[i].frontendPort in ports
    ensures forall p :: p in ports ==> exists i :: 0 <= i < |rules| && rules[i].frontendPort == p
  {
    set i | 0 <= i < |rules| :: rules[i].frontendPort
  }

  /** The least port in [lo, EndAlternatePort) that is not used. */
  function FirstFreeFrom(used: set<int>, lo: int): (r: Option<int>)
    requires FirstAlternatePort <= lo <= EndAlternatePort
    ensures r.Some? ==> lo <= r.value < EndAlternatePort && r.value !in used
    ensures r.Some? ==> forall q :: lo <= q < r.value ==> q in used
    ensures r.None? ==> forall q :: lo <= q < EndAlternatePort ==> q in used
    decreases EndAlternatePort - lo
  {
    if lo == EndAlternatePort then None
    else if lo !in used then Some(lo)
    else FirstFreeFrom(used, lo + 1)
  }

  /** The frontend port for a new rule, or None when every candidate is
      taken. */
  function SelectFrontendPort(used: set<int>): (r: Option<int>)
    ensures SshPort !in used ==> r == Some(SshPort)
    ensures SshPort in used && r.Some? ==>
      && FirstAlternatePort <= r.value < EndAlternatePort
      && forall q :: FirstAlternatePort <= q < r.value ==> q in used
    ensures r.Some? ==> r.value !in used
    ensures r.None? <==>
      SshPort in used && forall q :: FirstAlternatePort <= q < EndAlternatePort ==> q in used
  {
    if SshPort !in used then Some(SshPort) else FirstFreeFrom(used, FirstAlternatePort)
  }

  /** The candidates in the order they are tried: 22, then 2201..2219. */
  function Candidates(): (c: seq<int>)
    ensures |c| == 20
  {
    [SshPort] + seq(EndAlternatePort - FirstAlternatePort, i => FirstAlternatePort + i)
  }

  /** Reference characterisation of the selection: the chosen port is the
      first candidate in scan order that is free, and there is none exactly
      when every candidate is used. */
  lemma SelectIsFirstFreeCandidate(used: set<int>)
    ensures SelectFrontendPort(used).None? <==>
      forall k :: 0 <= k < |Candidates()| ==> Candidates()[k] in used
    ensures SelectFrontendPort(used).Some? ==>
      exists k :: 0 <= k < |Candidates()| && Candidates()[k] == SelectFrontendPort(used).value
        && Candidates()[k] !in used
        && forall j :: 0 <= j < k ==> Candidates()[j] in used
  {
    var c := Candidates();
    var r := SelectFrontendPort(used);
    assert forall k :: 1 <= k < |c| ==> c[k] == FirstAlternatePort + k - 1;
    if r.None? {
      forall k | 0 <= k < |c|
        ensures c[k] in used
      {
        if k > 0 {
          assert FirstAlternatePort <= c[k] < EndAlternatePort;
        }
      }
    } else if r.value == SshPort {
      assert c[0] == SshPort;
    } else {
      var k := r.value - FirstAlternatePort + 1;
      assert c[k] == r.value;
      forall j | 0 <= j < k
        ensures c[j] in used
      {
        if j > 0 {
          assert FirstAlternatePort <= c[j] < r.value;
        }
      }
    }
    if forall k :: 0 <= k < |c| ==> c[k] in used {
      assert SshPort in used by { assert c[0] == SshPort; }
      forall q | FirstAlternatePort <= q < EndAlternatePort
        ensures q in used
      {
        assert c[q - FirstAlternatePort + 1] == q;
      }
    }
  }

  /** Rules {22, 2201, 2202} in use: the next rule gets 2203. */
  lemma ExampleNextAlternatePort()
    ensures SelectFrontendPort({22, 2201, 2202}) == Some(2203)
  {
  }

  /** Rules occupying 22 and all of 2201..2219: no port is available. */
  lemma ExampleRangeExhausted(used: set<int>)
    requires 22 in used && forall p :: 2201 <= p < 2220 ==> p in used
    ensures SelectFrontendPort(used).None?
  {
  }

  /** What the source indexes without checking: a new rule takes the load
      balancer's first frontend IP configuration, which must therefore exist
      whenever a new rule is actually built. */
  predicate FrontendIndexable(lb: LoadBalancer, ruleName: string) {
    lb.properties.Some? && lb.properties.value.inboundNatRules.Some?
    && !HasRuleNamed(lb.properties.value.inboundNatRules.value, ruleName)
    && SelectFrontendPort(UsedPorts(lb.properties.value.inboundNatRules.value)).Some?
    ==> |lb.properties.value.frontendIPConfigurationIds| > 0
  }

  /** The decision part of creating a per-machine SSH NAT rule:
      Ok(None) when a rule of that name already exists (nothing to create),
      Ok(Some(rule)) for the rule to create, or the error that stops it. */
  function PlanInboundNatRule(lb: LoadBalancer, ruleName: string): (r: Result<Option<NatRuleSpec>>)
    requires FrontendIndexable(lb, ruleName)
    // the rule list must be readable
    ensures lb.properties.None? || lb.properties.value.inboundNatRules.None? ==>
      r == Err(ConfigError(lb.name))
    // nothing to create exactly when a rule of the same name exists
    ensures r == Ok(None) <==>
      (lb.properties.Some? && lb.properties.value.inboundNatRules.Some?
       && HasRuleNamed(lb.properties.value.inboundNatRules.value, ruleName))
    // a free candidate port always yields a new rule, and none is a capacity error
    ensures (lb.properties.Some? && lb.properties.value.inboundNatRules.Some?
             && !HasRuleNamed(lb.properties.value.inboundNatRules.value, ruleName)) ==>
      if SelectFrontendPort(UsedPorts(lb.properties.value.inboundNatRules.value)).Some?
      then r.Ok? && r.value.Some?
      else r == Err(CapacityError(lb.name))
    // exhausting 22 and 2201..2219 is a capacity error
    ensures (r.Err? && lb.properties.Some? && lb.properties.value.inboundNatRules.Some?) ==>
      r.error == CapacityError(lb.name)
      && forall p :: p in Candidates() ==> p in UsedPorts(lb.properties.value.inboundNatRules.value)
    // a new rule has the fixed shape and a port no existing rule uses
    ensures r.Ok? && r.value.Some? ==>
      var rule := r.value.value;
      var rules := lb.properties.value.inboundNatRules.value;
      && lb.properties.Some? && lb.properties.value.inboundNatRules.Some?
      && !HasRuleNamed(rules, ruleName)
      && rule.name == ruleName
      && rule.backendPort == SshPort
      && !rule.enableFloatingIP
      && rule.idleTimeoutInMinutes == 4
      && rule.protocol == Tcp
      && Some(rule.frontendPort) == SelectFrontendPort(UsedPorts(rules))
      && rule.frontendIPConfigurationId == lb.properties.value.frontendIPConfigurationIds[0]
      && forall i :: 0 <= i < |rules| ==> rules[i].frontendPort != rule.frontendPort
  {
    if lb.properties.None? || lb.properties.value.inboundNatRules.None? then
      Err(ConfigError(lb.name))
    else
      var props := lb.properties.value;
      var rules := props.inboundNatRules.value;
      if HasRuleNamed(rules, ruleName) then
        Ok(None)
      else
        match SelectFrontendPort(UsedPorts(rules))
        case None =>
          SelectIsFirstFreeCandidate(UsedPorts(rules));
          Err(CapacityError(lb.name))
        case Some(port) =>
          Ok(Some(NatRuleSpec(
            name := ruleName,
            backendPort := SshPort,
            enableFloatingIP := false,
            idleTimeoutInMinutes := 4,
            frontendIPConfigurationId := props.frontendIPConfigurationIds[0],
            protocol := Tcp,
            frontendPort := port)))
  }
}

=== FILE: naming.dfy ===
/** Deterministic naming. The API-server public IP and the IPv6 egress public
    IP are named after a 32-bit FNV-1a hash of "{subscription}/{group}/{cluster}",
    taken over the UTF-8 bytes of that string and rendered in lower-case
    hexadecimal without leading zeros (Go's `%x` of a uint32).

    The name and DNS templates that combine a prefix with the hash live in a
    package that is not part of this model; they are carried as uninterpreted
    functions in `Templates`. */
module Naming {

  /** An octet, as Go's `byte`. */
  newtype byte = x: int | 0 <= x < 0x100

  /** The helper templates `GeneratePublicIPName`, `GeneratePublicLBName`,
      `GenerateInternalLBName` and `GenerateFQDN`. Only their determinism is
      relied on. */
  datatype Templates = Templates(
    publicIPName: (string, string) -> string,
    publicLBName: string -> string,
    internalLBName: string -> string,
    fqdn: (string, string) -> string)

  // ---------------------------------------------------------------------
  // UTF-8 encoding of the hashed key (Go's `[]byte(s)`)
  // ---------------------------------------------------------------------

  /** The number of bytes UTF-8 uses for a scalar value. */
  function Utf8Width(n: int): nat {
    if n < 0x80 then 1 else if n < 0x800 then 2 else if n < 0x1_0000 then 3 else 4
  }

  function EncodeChar(c: char): (bs: seq<byte>)
    ensures |bs| == Utf8Width(c as int)
    ensures c as int < 0x80 ==> bs == [c as int as byte]
    ensures forall i :: 1 <= i < |bs| ==> 0x80 <= bs[i] < 0xC0
  {
    var n := c as int;
    if n < 0x80 then
      [n as byte]
    else if n < 0x800 then
      [(0xC0 + n / 0x40) as byte, (0x80 + n % 0x40) as byte]
    else if n < 0x1_0000 then
      [(0xE0 + n / 0x1000) as byte, (0x80 + (n / 0x40) % 0x40) as byte,
       (0x80 + n % 0x40) as byte]
    else
      [(0xF0 + n / 0x4_0000) as byte, (0x80 + (n / 0x1000) % 0x40) as byte,
       (0x80 + (n / 0x40) % 0x40) as byte, (0x80 + n % 0x40) as byte]
  }

  /** Reads back the scalar value of one encoded character. */
  function DecodeChar(bs: seq<byte>): int
    requires 1 <= |bs| <= 4
  {
    if |bs| == 1 then bs[0] as int
    else if |bs| == 2 then (bs[0] as int - 0xC0) * 0x40 + (bs[1] as int - 0x80)
    else if |bs| == 3 then
      (bs[0] as int - 0xE0) * 0x1000 + (bs[1] as int - 0x80) * 0x40 + (bs[2] as int - 0x80)
    else
      (bs[0] as int - 0xF0) * 0x4_0000 + (bs[1] as int - 0x80) * 0x1000
        + (bs[2] as int - 0x80) * 0x40 + (bs[3] as int - 0x80)
  }

  /** Decoding one encoded character gives the character back. */
  lemma DecodeEncodeChar(c: char)
    ensures DecodeChar(EncodeChar(c)) == c as int
  {
    var n := c as int;
    var bs := EncodeChar(c);
    if n < 0x80 {
    } else if n < 0x800 {
      assert bs[0] as int - 0xC0 == n / 0x40 && bs[1] as int - 0x80 == n % 0x40;
    } else if n < 0x1_0000 {
      assert bs[0] as int - 0xE0 == n / 0x1000;
      assert bs[1] as int - 0x80 == (n / 0x40) % 0x40;
      assert bs[2] as int - 0x80 == n % 0x40;
      SixBitGroups(n);
    } else {
      assert bs[0] as int - 0xF0 == n / 0x4_0000;
      assert bs[1] as int - 0x80 == (n / 0x1000) % 0x40;
      assert bs[2] as int - 0x80 == (n / 0x40) % 0x40;
      assert bs[3] as int - 0x80 == n % 0x40;
      SixBitGroups(n);
      SixBitGroups(n / 0x40);
    }
  }

  /** Splitting off the low six bits twice is splitting off twelve. */
  lemma SixBitGroups(n: nat)
    ensures n / 0x1000 * 0x1000 + (n / 0x40) % 0x40 * 0x40 + n % 0x40 == n
    ensures (n / 0x40) / 0x1000 == n / 0x4_0000
    ensures n / 0x1000 == (n / 0x40) / 0x40
  {
    var q := n / 0x40;
    var p := q / 0x40;
    assert n == q * 0x40 + n % 0x40;
    assert q == p * 0x40 + q % 0x40;
    assert p == n / 0x1000;
    var r := q / 0x1000;
    assert q == r * 0x1000 + q % 0x1000;
    assert r == n / 0x4_0000;
  }

  function Utf8(s: string): (bs: seq<byte>)
    ensures |s| <= |bs| <= 4 * |s|
  {
    if |s| == 0 then [] else EncodeChar(s[0]) + Utf8(s[1..])
  }

  /** Encoding distributes over concatenation. */
  lemma {:induction false} Utf8Append(a: string, b: string)
    ensures Utf8(a + b) == Utf8(a) + Utf8(b)
  {
    if |a| == 0 {
      assert a + b == b;
    } else {
      assert (a + b)[1..] == a[1..] + b;
      Utf8Append(a[1..], b);
    }
  }

  // ---------------------------------------------------------------------
  // 32-bit FNV-1a (Go's hash/fnv New32a)
  // ---------------------------------------------------------------------

  const FnvOffset32: bv32 := 0x811c_9dc5

  /** One FNV-1a round: xor in the byte, then multiply by the 32-bit FNV
      prime 0x01000193. */
  function FnvStep(h: bv32, b: byte): bv32 {
    (h ^ (b as bv32)) * 0x0100_0193
  }

  function FnvFrom(h: bv32, data: seq<byte>): bv32
    decreases |data|
  {
    if |data| == 0 then h else FnvFrom(FnvStep(h, data[0]), data[1..])
  }

  function Fnv1a32(data: seq<byte>): bv32 {
    FnvFrom(FnvOffset32, data)
  }

  /** Hashing is incremental: hashing `a + b` equals hashing `a` and then
      continuing with `b` (what successive `Write` calls do). */
  lemma {:induction false} FnvFromAppend(h: bv32, a: seq<byte>, b: seq<byte>)
    ensures FnvFrom(h, a + b) == FnvFrom(FnvFrom(h, a), b)
    decreases |a|
  {
    if |a| == 0 {
      assert a + b == b;
    } else {
      assert (a + b)[1..] == a[1..] + b;
      FnvFromAppend(FnvStep(h, a[0]), a[1..], b);
    }
  }

  // ---------------------------------------------------------------------
  // Lower-case hexadecimal rendering (Go's `%x`)
  // ---------------------------------------------------------------------

  const HexDigits: string := "0123456789abcdef"

  predicate IsLowerHexDigit(c: char) {
    c in HexDigits
  }

  function DigitValue(c: char): (v: nat)
    requires IsLowerHexDigit(c)
    ensures v < 16
  {
    if '0' <= c <= '9' then c as int - '0' as int else c as int - 'a' as int + 10
  }

  /** Each digit reads back as the value it was rendered from. */
  lemma DigitValueOfDigit(d: nat)
    requires d < 16
    ensures IsLowerHexDigit(HexDigits[d]) && DigitValue(HexDigits[d]) == d
  {
  }

  /** `n` in lower-case hexadecimal with no leading zeros. */
  function LowerHex(n: nat): (s: string)
    ensures |s| >= 1
    ensures forall i :: 0 <= i < |s| ==> IsLowerHexDigit(s[i])
    ensures s[0] == '0' ==> n == 0 && s == "0"
    decreases n
  {
    if n < 16 then [HexDigits[n]] else LowerHex(n / 16) + [HexDigits[n % 16]]
  }

  function ParseHex(s: string): nat
    requires forall i :: 0 <= i < |s| ==> IsLowerHexDigit(s[i])
  {
    if |s| == 0 then 0 else ParseHex(s[..|s| - 1]) * 16 + DigitValue(s[|s| - 1])
  }

  /** Rendering is faithful: parsing the digits gives the number back. */
  lemma {:induction false} ParseLowerHex(n: nat)
    ensures ParseHex(LowerHex(n)) == n
    decreases n
  {
    var s := LowerHex(n);
    DigitValueOfDigit(n % 16);
    if n >= 16 {
      assert s == LowerHex(n / 16) + [HexDigits[n % 16]];
      assert s[..|s| - 1] == LowerHex(n / 16);
      assert s[|s| - 1] == HexDigits[n % 16];
      ParseLowerHex(n / 16);
      assert ParseHex(s) == ParseHex(LowerHex(n / 16)) * 16 + n % 16;
    }
  }

  /** A value below 16^digits renders in at most `digits` digits, so a
      32-bit value takes at most eight. */
  lemma {:induction false} LowerHexWidth(n: nat, digits: nat)
    requires n < Pow16(digits) && digits >= 1
    ensures |LowerHex(n)| <= digits
    decreases digits
  {
    if n >= 16 {
      assert digits >= 2 by {
        assert Pow16(1) == 16;
      }
      LowerHexWidth(n / 16, digits - 1);
    }
  }

  /** Hex digits with no leading zero, except for the single digit "0": the
      form `%x` prints. */
  predicate CanonicalHex(s: string) {
    && |s| >= 1
    && (forall i :: 0 <= i < |s| ==> IsLowerHexDigit(s[i]))
    && (s[0] == '0' ==> s == "0")
  }

  /** A digit is determined by its value. */
  lemma DigitOfValue(c: char)
    requires IsLowerHexDigit(c)
    ensures HexDigits[DigitValue(c)] == c
  {
  }

  /** Digits that read as zero are all '0'. */
  lemma {:induction false} ParseHexZero(s: string)
    requires forall i :: 0 <= i < |s| ==> IsLowerHexDigit(s[i])
    requires ParseHex(s) == 0
    ensures forall i :: 0 <= i < |s| ==> s[i] == '0'
    decreases |s|
  {
    if |s| > 0 {
      var last := s[|s| - 1];
      DigitOfValue(last);
      ParseHexZero(s[..|s| - 1]);
      forall i | 0 <= i < |s|
        ensures s[i] == '0'
      {
        if i < |s| - 1 {
          assert s[i] == s[..|s| - 1][i];
        }
      }
    }
  }

  /** Canonical hex is unique: two canonical strings with the same value are
      the same string. So a value has one `%x` rendering. */
  lemma {:induction false} CanonicalHexUnique(a: string, b: string)
    requires CanonicalHex(a) && CanonicalHex(b)
    requires ParseHex(a) == ParseHex(b)
    ensures a == b
    decreases |a| + |b|
  {
    if |a| == 1 || |b| == 1 {
      SingleDigit(a);
      SingleDigit(b);
      if |a| == 1 && |b| == 1 {
        DigitOfValue(a[0]);
        DigitOfValue(b[0]);
        assert a == [a[0]] && b == [b[0]];
      } else if |b| == 1 {
        LongCanonicalHexAtLeast16(a);
        assert false;
      } else {
        LongCanonicalHexAtLeast16(b);
        assert false;
      }
    } else {
      var a', b' := a[..|a| - 1], b[..|b| - 1];
      var da, db := DigitValue(a[|a| - 1]), DigitValue(b[|b| - 1]);
      assert ParseHex(a) == ParseHex(a') * 16 + da;
      assert ParseHex(b) == ParseHex(b') * 16 + db;
      LastDigit(ParseHex(a'), da);
      LastDigit(ParseHex(b'), db);
      DigitOfValue(a[|a| - 1]);
      DigitOfValue(b[|b| - 1]);
      assert a'[0] == a[0] && b'[0] == b[0];
      CanonicalHexUnique(a', b');
      SplitLast(a);
      SplitLast(b);
    }
  }

  lemma SplitLast(s: string)
    requires |s| > 0
    ensures s == s[..|s| - 1] + [s[|s| - 1]]
  {
  }

  /** A single digit reads as its value, below 16. */
  lemma SingleDigit(s: string)
    requires CanonicalHex(s)
    ensures |s| == 1 ==> ParseHex(s) == DigitValue(s[0]) < 16
  {
    if |s| == 1 {
      assert s[..0] == [];
    }
  }

  lemma LastDigit(x: nat, d: nat)
    requires d < 16
    ensures (x * 16 + d) / 16 == x && (x * 16 + d) % 16 == d
  {
  }

  /** A canonical string of two or more digits reads as at least 16. */
  lemma LongCanonicalHexAtLeast16(s: string)
    requires CanonicalHex(s) && |s| >= 2
    ensures ParseHex(s) >= 16
  {
    var prefix := s[..|s| - 1];
    if ParseHex(prefix) == 0 {
      ParseHexZero(prefix);
    }
  }

  function Pow16(k: nat): nat {
    if k == 0 then 1 else 16 * Pow16(k - 1)
  }

  // ---------------------------------------------------------------------
  // The cluster hash
  // ---------------------------------------------------------------------

  /** The hashed key, "{subscription}/{group}/{cluster}". */
  function ClusterKey(subscriptionId: string, resourceGroup: string, clusterName: string): string {
    subscriptionId + "/" + resourceGroup + "/" + clusterName
  }

  /** The lower-case hexadecimal FNV-1a hash of the cluster key. */
  function ClusterHash(subscriptionId: string, resourceGroup: string, clusterName: string): (h: string)
    ensures 1 <= |h| <= 8
    ensures forall i :: 0 <= i < |h| ==> IsLowerHexDigit(h[i])
    ensures h[0] == '0' ==> h == "0"
    ensures ParseHex(h) == Fnv1a32(Utf8(ClusterKey(subscriptionId, resourceGroup, clusterName))) as int
  {
    var v := Fnv1a32(Utf8(ClusterKey(subscriptionId, resourceGroup, clusterName))) as int;
    LowerHexWidth(v, 8);
    ParseLowerHex(v);
    LowerHex(v)
  }

  /** Hashing follows any sequence of states each of which is one round
      after the previous: the result is the last state. */
  lemma {:induction false} FnvFromStates(states: seq<bv32>, data: seq<byte>)
    requires |states| == |data| + 1
    requires forall k :: 0 <= k < |data| ==> FnvStep(states[k], data[k]) == states[k + 1]
    ensures FnvFrom(states[0], data) == states[|data|]
    decreases |data|
  {
    if |data| > 0 {
      FnvFromStates(states[1..], data[1..]);
    }
  }

  /** ASCII text encodes as one byte per character, the character's code. */
  lemma {:induction false} Utf8Ascii(s: string)
    requires forall i :: 0 <= i < |s| ==> s[i] as int < 0x80
    ensures |Utf8(s)| == |s|
    ensures forall i :: 0 <= i < |s| ==> Utf8(s)[i] == s[i] as int as byte
    decreases |s|
  {
    if |s| > 0 {
      Utf8Ascii(s[1..]);
      assert Utf8(s) == [s[0] as int as byte] + Utf8(s[1..]);
    }
  }

  /** One more digit of a rendering: `n` renders as the rendering of its
      leading digits followed by its last digit. */
  lemma LowerHexStep(n: nat, high: nat, prefix: string, low: nat, rendered: string)
    requires n == high * 16 + low && low < 16 && high >= 1
    requires LowerHex(high) == prefix
    requires rendered == prefix + [HexDigits[low]]
    ensures LowerHex(n) == rendered
  {
    LastDigit(high, low);
  }

  lemma RenderExampleHash()
    ensures LowerHex(0xf706_41f5) == "f70641f5"
  {
    assert LowerHex(0xf) == "f";
    LowerHexStep(0xf7, 0xf, "f", 7, "f7");
    LowerHexStep(0xf70, 0xf7, "f7", 0, "f70");
    LowerHexStep(0xf706, 0xf70, "f70", 6, "f706");
    LowerHexStep(0xf_7064, 0xf706, "f706", 4, "f7064");
    LowerHexStep(0xf7_0641, 0xf_7064, "f7064", 1, "f70641");
    LowerHexStep(0xf70_641f, 0xf7_0641, "f70641", 15, "f70641f");
    LowerHexStep(0xf706_41f5, 0xf70_641f, "f70641f", 5, "f70641f5");
  }

  const ExampleKey: string := "sub/rg/demo"

  /** FNV-1a states after each byte of the example key. */
  const ExampleStates: seq<bv32> := [0x811c_9dc5, 0xf60c_4582, 0x4c52_23d5, 0xdc4e_3915, 0x0924_164e,
                                     0x9fcf_0074, 0xa5dd_1de9, 0xe115_deb2, 0x2b6d_cae2, 0xe4d5_d285,
                                     0x249b_0338, 0xf706_41f5]

  lemma ExampleRound(k: nat)
    requires k < |ExampleKey|
    ensures ExampleKey[k] as int < 0x80
    ensures FnvStep(ExampleStates[k], ExampleKey[k] as int as byte) == ExampleStates[k + 1]
  {
    if k == 0 { assert FnvStep(0x811c_9dc5, 115) == 0xf60c_4582; }
    else if k == 1 { assert FnvStep(0xf60c_4582, 117) == 0x4c52_23d5; }
    else if k == 2 { assert FnvStep(0x4c52_23d5, 98) == 0xdc4e_3915; }
    else if k == 3 { assert FnvStep(0xdc4e_3915, 47) == 0x0924_164e; }
    else if k == 4 { assert FnvStep(0x0924_164e, 114) == 0x9fcf_0074; }
    else if k == 5 { assert FnvStep(0x9fcf_0074, 103) == 0xa5dd_1de9; }
    else if k == 6 { assert FnvStep(0xa5dd_1de9, 47) == 0xe115_deb2; }
    else if k == 7 { assert FnvStep(0xe115_deb2, 100) == 0x2b6d_cae2; }
    else if k == 8 { assert FnvStep(0x2b6d_cae2, 101) == 0xe4d5_d285; }
    else if k == 9 { assert FnvStep(0xe4d5_d285, 109) == 0x249b_0338; }
    else { assert FnvStep(0x249b_0338, 111) == 0xf706_41f5; }
  }

  /** The cluster hash is the one `%x` rendering of the key's FNV-1a value:
      a canonical hex string is the hash exactly when it has that value. */
  lemma ClusterHashIsTheRendering(subscriptionId: string, resourceGroup: string, clusterName: string, h: string)
    requires CanonicalHex(h)
    ensures ClusterHash(subscriptionId, resourceGroup, clusterName) == h
        <==> ParseHex(h) == Fnv1a32(Utf8(ClusterKey(subscriptionId, resourceGroup, clusterName))) as int
  {
    var hash := ClusterHash(subscriptionId, resourceGroup, clusterName);
    if ParseHex(h) == ParseHex(hash) {
      CanonicalHexUnique(hash, h);
    }
  }

  /** The key's FNV-1a value, round by round over its ASCII bytes. */
  lemma ExampleKeyDigest()
    ensures Fnv1a32(Utf8(ExampleKey)) == 0xf706_41f5
  {
    forall k | 0 <= k < |ExampleKey|
      ensures ExampleKey[k] as int < 0x80
      ensures FnvStep(ExampleStates[k], ExampleKey[k] as int as byte) == ExampleStates[k + 1]
    {
      ExampleRound(k);
    }
    Utf8Ascii(ExampleKey);
    var bytes := Utf8(ExampleKey);
    FnvFromStates(ExampleStates, bytes);
  }

  lemma ExampleKeyIsClusterKey()
    ensures ClusterKey("sub", "rg", "demo") == ExampleKey
  {
    assert "sub" + "/" + "rg" + "/" + "demo" == "sub/rg/demo";
  }

  /** A worked value: subscription "sub", group "rg" and cluster "demo"
      hash to f70641f5. */
  lemma ClusterHashExample()
    ensures ClusterHash("sub", "rg", "demo") == "f70641f5"
  {
    ExampleKeyIsClusterKey();
    ExampleKeyDigest();
    RenderExampleHash();
  }
}

=== FILE: network_interfaces.dfy ===
/** The network-interface service: for every machine's interface spec it
    assembles one IP configuration (subnet, private address allocation,
    load-balancer backend pools, the SSH NAT rule of a control-plane machine,
    public IP, accelerated networking) and creates or updates the interface;
    on delete it removes each interface and its NAT rule.

    The provider's clients are the fields of `NicCloud`: each answers a
    request with a value or an error. Everything the service asks of them
    is recorded, in order, as a trace of `NicCall`s. All calls except the
    subnet lookup go to the cluster's resource group, which is left implicit. */
module NetworkInterfaces {
  import opened Outcomes
  import opened InboundNat

  /** The machine role that receives an SSH NAT rule. */
  const ControlPlaneRole := "control-plane"
  /** The name of the single IP configuration of every interface. */
  const IpConfigurationName := "pipConfig"

  /** One machine's desired interface. Empty strings mean "not set", as in
      the source; `acceleratedNetworking` is a nullable flag. */
  datatype NicSpec = NicSpec(
    name: string,
    machineName: string,
    machineRole: string,
    vnetResourceGroup: string,
    vnetName: string,
    subnetName: string,
    staticIPAddress: string,
    publicLoadBalancerName: string,
    internalLoadBalancerName: string,
    publicIPName: string,
    acceleratedNetworking: Option<bool>,
    vmSize: string)

  datatype AllocationMethod = Dynamic | Static

  /** A public IP resource, as fetched and attached unchanged. */
  datatype PublicIPAddress = PublicIPAddress(id: string, name: string)

  datatype IpConfiguration = IpConfiguration(
    subnetId: string,
    allocation: AllocationMethod,
    privateIPAddress: Option<string>,
    backendPoolIds: seq<string>,
    inboundNatRuleIds: Option<seq<string>>,
    publicIPAddress: Option<PublicIPAddress>)

  datatype Interface = Interface(
    location: string,
    ipConfigurationName: string,
    ipConfiguration: IpConfiguration,
    enableAcceleratedNetworking: bool)

  /** The resource clients the service calls, as answers to requests. */
  datatype NicCloud = NicCloud(
    getSubnetId: (string, string, string) -> Result<string>,
    getLoadBalancer: string -> Result<LoadBalancer>,
    getPublicIP: string -> Result<PublicIPAddress>,
    hasAcceleratedNetworking: string -> Result<bool>,
    createNatRule: (string, NatRuleSpec) -> Status,
    createInterface: (string, Interface) -> Status,
    deleteInterface: string -> Status,
    deleteNatRule: (string, string) -> Status)

  datatype NicCall =
    | GetSubnet(resourceGroup: string, vnetName: string, subnetName: string)
    | GetLoadBalancer(lbName: string)
    | CreateNatRule(natLbName: string, rule: NatRuleSpec)
    | GetPublicIP(ipName: string)
    | LookupAcceleratedNetworking(vmSize: string)
    | CreateInterface(nicName: string, iface: Interface)
    | DeleteInterface(deletedNic: string)
    | DeleteNatRule(ruleLbName: string, ruleName: string)

  /** The calls one step made, and the error that ended it, if any. */
  datatype Run = Run(calls: seq<NicCall>, error: Option<Error>)

  /** The calls one stage made and the value it produced (or its error). */
  datatype Stage<T> = Stage(calls: seq<NicCall>, outcome: Result<T>)

  /** The error the clients answer a call with, or None when it succeeds. */
  function CallError(cloud: NicCloud, c: NicCall): Option<Error> {
    match c
    case GetSubnet(rg, vnet, subnet) => ResultError(cloud.getSubnetId(rg, vnet, subnet))
    case GetLoadBalancer(name) => ResultError(cloud.getLoadBalancer(name))
    case CreateNatRule(lbName, rule) => ErrorOf(cloud.createNatRule(lbName, rule))
    case GetPublicIP(name) => ResultError(cloud.getPublicIP(name))
    case LookupAcceleratedNetworking(size) => ResultError(cloud.hasAcceleratedNetworking(size))
    case CreateInterface(name, iface) => ErrorOf(cloud.createInterface(name, iface))
    case DeleteInterface(name) => ErrorOf(cloud.deleteInterface(name))
    case DeleteNatRule(lbName, ruleName) => ErrorOf(cloud.deleteNatRule(lbName, ruleName))
  }

  function ResultError<T>(r: Result<T>): (e: Option<Error>)
    ensures e.None? <==> r.Ok?
    ensures e.Some? ==> r == Err(e.value)
  {
    if r.Ok? then None else Some(r.error)
  }

  /** Every call of `calls` succeeded. */
  ghost predicate AllSucceeded(cloud: NicCloud, calls: seq<NicCall>) {
    forall c :: c in calls ==> CallError(cloud, c).None?
  }

  // ---------------------------------------------------------------------
  // Preconditions: the indexes the source takes without checking
  // ---------------------------------------------------------------------

  predicate HasBackendPool(lb: LoadBalancer) {
    lb.properties.Some? && |lb.properties.value.backendPoolIds| > 0
  }

  function FirstBackendPool(lb: LoadBalancer): string
    requires HasBackendPool(lb)
  {
    lb.properties.value.backendPoolIds[0]
  }

  /** Every load balancer the interface names, when it is found, exposes a
      backend pool; the public one, when a NAT rule is built on it, a
      frontend IP configuration. */
  predicate LoadBalancersUsable(spec: NicSpec, cloud: NicCloud) {
    && (spec.publicLoadBalancerName != "" && cloud.getLoadBalancer(spec.publicLoadBalancerName).Ok? ==>
          var lb := cloud.getLoadBalancer(spec.publicLoadBalancerName).value;
          HasBackendPool(lb)
          && (spec.machineRole == ControlPlaneRole ==> FrontendIndexable(lb, spec.machineName)))
    && (spec.internalLoadBalancerName != "" && cloud.getLoadBalancer(spec.internalLoadBalancerName).Ok? ==>
          HasBackendPool(cloud.getLoadBalancer(spec.internalLoadBalancerName).value))
  }

  // ---------------------------------------------------------------------
  // Creating the SSH NAT rule
  // ---------------------------------------------------------------------

  /** The association id of a machine's NAT rule on a load balancer. */
  function NatRuleId(lb: LoadBalancer, ruleName: string): string {
    lb.id + "/inboundNatRules/" + ruleName
  }

  /** Creates the machine's NAT rule unless one of that name exists; the
      rule goes to the load balancer's own name. */
  function CreateInboundNatRule(lb: LoadBalancer, ruleName: string, cloud: NicCloud): (r: Run)
    requires FrontendIndexable(lb, ruleName)
    ensures |r.calls| <= 1
    // nothing is created when the rule exists or the plan fails
    ensures |r.calls| == 0 <==> PlanInboundNatRule(lb, ruleName) == Ok(None) || PlanInboundNatRule(lb, ruleName).Err?
    ensures |r.calls| == 0 ==> r.error == (if PlanInboundNatRule(lb, ruleName).Err?
                                           then Some(PlanInboundNatRule(lb, ruleName).error) else None)
    // otherwise exactly the planned rule is created, and its answer is the result
    ensures |r.calls| == 1 ==>
      && r.calls[0].CreateNatRule?
      && r.calls[0].natLbName == lb.name
      && PlanInboundNatRule(lb, ruleName) == Ok(Some(r.calls[0].rule))
      && r.error == ErrorOf(cloud.createNatRule(lb.name, r.calls[0].rule))
  {
    match PlanInboundNatRule(lb, ruleName)
    case Err(e) => Run([], Some(e))
    case Ok(None) => Run([], None)
    case Ok(Some(rule)) => Run([CreateNatRule(lb.name, rule)], ErrorOf(cloud.createNatRule(lb.name, rule)))
  }

  // ---------------------------------------------------------------------
  // The stages of one interface
  // ---------------------------------------------------------------------

  /** The allocation of the private address: static exactly when an
      address is requested. */
  function Allocation(spec: NicSpec): (a: (AllocationMethod, Option<string>))
    ensures a.0 == Static <==> spec.staticIPAddress != ""
    ensures a.1.Some? <==> spec.staticIPAddress != ""
    ensures a.1.Some? ==> a.1.value == spec.staticIPAddress
  {
    if spec.staticIPAddress != "" then (Static, Some(spec.staticIPAddress)) else (Dynamic, None)
  }

  /** A NAT rule create the reconciler may issue for this interface: only
      for a control-plane machine behind a public load balancer, and only
      the rule planned on that load balancer. */
  ghost predicate NatRuleCallAllowed(spec: NicSpec, cloud: NicCloud, call: NicCall)
    requires LoadBalancersUsable(spec, cloud)
    requires call.CreateNatRule?
  {
    && spec.machineRole == ControlPlaneRole
    && spec.publicLoadBalancerName != ""
    && cloud.getLoadBalancer(spec.publicLoadBalancerName).Ok?
    && var lb := cloud.getLoadBalancer(spec.publicLoadBalancerName).value;
       call.natLbName == lb.name && PlanInboundNatRule(lb, spec.machineName) == Ok(Some(call.rule))
  }

  /** The public load balancer: its first backend pool, and for a
      control-plane machine the NAT rule and its association. */
  function PublicLoadBalancerStage(spec: NicSpec, cloud: NicCloud): (s: Stage<(seq<string>, Option<seq<string>>)>)
    requires LoadBalancersUsable(spec, cloud)
    ensures forall c :: c in s.calls ==> c.GetLoadBalancer? || c.CreateNatRule?
    ensures forall c :: c in s.calls && c.CreateNatRule? ==> NatRuleCallAllowed(spec, cloud, c)
    ensures spec.publicLoadBalancerName == "" ==> s == Stage([], Ok(([], None)))
    // a failed fetch ends the stage with the fetch's error
    ensures spec.publicLoadBalancerName != "" && cloud.getLoadBalancer(spec.publicLoadBalancerName).Err? ==>
      s == Stage([GetLoadBalancer(spec.publicLoadBalancerName)],
                 Err(cloud.getLoadBalancer(spec.publicLoadBalancerName).error))
    // a found balancer: a node machine succeeds at once; a control-plane
    // machine goes on to its NAT rule, whose failure fails the stage
    ensures spec.publicLoadBalancerName != "" && cloud.getLoadBalancer(spec.publicLoadBalancerName).Ok? ==>
      var lb := cloud.getLoadBalancer(spec.publicLoadBalancerName).value;
      if spec.machineRole != ControlPlaneRole then
        s.calls == [GetLoadBalancer(spec.publicLoadBalancerName)] && s.outcome.Ok?
      else
        var natRun := CreateInboundNatRule(lb, spec.machineName, cloud);
        && s.calls == [GetLoadBalancer(spec.publicLoadBalancerName)] + natRun.calls
        && (s.outcome.Err? <==> natRun.error.Some?)
        && (natRun.error.Some? ==> s.outcome == Err(natRun.error.value))
    ensures s.outcome.Ok? && spec.publicLoadBalancerName != "" ==>
      && cloud.getLoadBalancer(spec.publicLoadBalancerName).Ok?
      && var lb := cloud.getLoadBalancer(spec.publicLoadBalancerName).value;
         && s.outcome.value.0 == [FirstBackendPool(lb)]
         && (s.outcome.value.1.Some? <==> spec.machineRole == ControlPlaneRole)
         && (s.outcome.value.1.Some? ==> s.outcome.value.1.value == [NatRuleId(lb, spec.machineName)])
  {
    if spec.publicLoadBalancerName == "" then
      Stage([], Ok(([], None)))
    else
      var fetch := [GetLoadBalancer(spec.publicLoadBalancerName)];
      match cloud.getLoadBalancer(spec.publicLoadBalancerName)
      case Err(e) => Stage(fetch, Err(e))
      case Ok(lb) =>
        var pool := FirstBackendPool(lb);
        if spec.machineRole == ControlPlaneRole then
          var natRun := CreateInboundNatRule(lb, spec.machineName, cloud);
          if natRun.error.Some? then Stage(fetch + natRun.calls, Err(natRun.error.value))
          else Stage(fetch + natRun.calls, Ok(([pool], Some([NatRuleId(lb, spec.machineName)]))))
        else
          Stage(fetch, Ok(([pool], None)))
  }

  /** The internal load balancer's first backend pool. */
  function InternalLoadBalancerStage(spec: NicSpec, cloud: NicCloud): (s: Stage<seq<string>>)
    requires LoadBalancersUsable(spec, cloud)
    ensures forall c :: c in s.calls ==> c.GetLoadBalancer?
    ensures spec.internalLoadBalancerName == "" ==> s == Stage([], Ok([]))
    // otherwise one fetch, and the stage fails exactly when the fetch does
    ensures spec.internalLoadBalancerName != "" ==>
      && s.calls == [GetLoadBalancer(spec.internalLoadBalancerName)]
      && (s.outcome.Err? <==> cloud.getLoadBalancer(spec.internalLoadBalancerName).Err?)
      && (s.outcome.Err? ==> s.outcome.error == cloud.getLoadBalancer(spec.internalLoadBalancerName).error)
    ensures s.outcome.Ok? && spec.internalLoadBalancerName != "" ==>
      && cloud.getLoadBalancer(spec.internalLoadBalancerName).Ok?
      && s.outcome.value == [FirstBackendPool(cloud.getLoadBalancer(spec.internalLoadBalancerName).value)]
  {
    if spec.internalLoadBalancerName == "" then
      Stage([], Ok([]))
    else
      var fetch := [GetLoadBalancer(spec.internalLoadBalancerName)];
      match cloud.getLoadBalancer(spec.internalLoadBalancerName)
      case Err(e) => Stage(fetch, Err(e))
      case Ok(lb) => Stage(fetch, Ok([FirstBackendPool(lb)]))
  }

  /** The public IP to attach, fetched when one is named. */
  function PublicIPStage(spec: NicSpec, cloud: NicCloud): (s: Stage<Option<PublicIPAddress>>)
    ensures forall c :: c in s.calls ==> c.GetPublicIP?
    ensures spec.publicIPName == "" ==> s == Stage([], Ok(None))
    // otherwise one fetch, and the stage fails exactly when the fetch does
    ensures spec.publicIPName != "" ==>
      && s.calls == [GetPublicIP(spec.publicIPName)]
      && (s.outcome.Err? <==> cloud.getPublicIP(spec.publicIPName).Err?)
      && (s.outcome.Err? ==> s.outcome.error == cloud.getPublicIP(spec.publicIPName).error)
    ensures s.outcome.Ok? && spec.publicIPName != "" ==>
      s.outcome.value.Some? && cloud.getPublicIP(spec.publicIPName) == Ok(s.outcome.value.value)
  {
    if spec.publicIPName == "" then
      Stage([], Ok(None))
    else
      var fetch := [GetPublicIP(spec.publicIPName)];
      match cloud.getPublicIP(spec.publicIPName)
      case Err(e) => Stage(fetch, Err(e))
      case Ok(ip) => Stage(fetch, Ok(Some(ip)))
  }

  /** The accelerated-networking flag: the spec's when set, else the VM
      size's capability; a failed lookup is an error, never a default. */
  function AcceleratedNetworkingStage(spec: NicSpec, cloud: NicCloud): (s: Stage<bool>)
    ensures spec.acceleratedNetworking.Some? ==> s == Stage([], Ok(spec.acceleratedNetworking.value))
    ensures spec.acceleratedNetworking.None? ==>
      s == Stage([LookupAcceleratedNetworking(spec.vmSize)], cloud.hasAcceleratedNetworking(spec.vmSize))
  {
    match spec.acceleratedNetworking
    case Some(flag) => Stage([], Ok(flag))
    case None => Stage([LookupAcceleratedNetworking(spec.vmSize)], cloud.hasAcceleratedNetworking(spec.vmSize))
  }

  /** What the lookups of one interface produce. */
  datatype Lookups = Lookups(
    subnetId: string,
    backendPoolIds: seq<string>,
    inboundNatRuleIds: Option<seq<string>>,
    publicIPAddress: Option<PublicIPAddress>,
    acceleratedNetworking: bool)

  /** The lookups agree with the clients' answers: the subnet id; backend
      pools public first, then internal; a NAT association exactly for a
      control-plane machine behind a public load balancer; the fetched
      public IP; the accelerated-networking flag from the spec or, when
      unset, from the capability lookup. */
  ghost predicate LookupsAgree(spec: NicSpec, cloud: NicCloud, l: Lookups)
    requires LoadBalancersUsable(spec, cloud)
  {
    var pub := spec.publicLoadBalancerName;
    var internal := spec.internalLoadBalancerName;
    && cloud.getSubnetId(spec.vnetResourceGroup, spec.vnetName, spec.subnetName) == Ok(l.subnetId)
    && (pub != "" ==> cloud.getLoadBalancer(pub).Ok?)
    && (internal != "" ==> cloud.getLoadBalancer(internal).Ok?)
    && l.backendPoolIds ==
         (if pub != "" then [FirstBackendPool(cloud.getLoadBalancer(pub).value)] else [])
         + (if internal != "" then [FirstBackendPool(cloud.getLoadBalancer(internal).value)] else [])
    && (l.inboundNatRuleIds.Some? <==> pub != "" && spec.machineRole == ControlPlaneRole)
    && (l.inboundNatRuleIds.Some? ==>
          l.inboundNatRuleIds.value == [NatRuleId(cloud.getLoadBalancer(pub).value, spec.machineName)])
    && (spec.publicIPName == "" ==> l.publicIPAddress == None)
    && (spec.publicIPName != "" ==>
          l.publicIPAddress.Some? && cloud.getPublicIP(spec.publicIPName) == Ok(l.publicIPAddress.value))
    && (spec.acceleratedNetworking.Some? ==> l.acceleratedNetworking == spec.acceleratedNetworking.value)
    && (spec.acceleratedNetworking.None? ==>
          cloud.hasAcceleratedNetworking(spec.vmSize) == Ok(l.acceleratedNetworking))
  }

  /** What the lookups after the public load balancer produce. */
  datatype LaterLookups = LaterLookups(
    internalPools: seq<string>,
    publicIPAddress: Option<PublicIPAddress>,
    acceleratedNetworking: bool)

  /** The internal load balancer, the public IP and the accelerated-networking
      capability, in order, stopping at the first error. */
  function LaterLookupStage(spec: NicSpec, cloud: NicCloud): (s: Stage<LaterLookups>)
    requires LoadBalancersUsable(spec, cloud)
    ensures forall c :: c in s.calls ==> c.GetLoadBalancer? || c.GetPublicIP? || c.LookupAcceleratedNetworking?
    ensures spec.acceleratedNetworking.Some? ==> forall c :: c in s.calls ==> !c.LookupAcceleratedNetworking?
    ensures s.outcome.Ok? ==>
      var l := s.outcome.value;
      var internal := spec.internalLoadBalancerName;
      && (internal != "" ==> cloud.getLoadBalancer(internal).Ok?)
      && l.internalPools == (if internal != "" then [FirstBackendPool(cloud.getLoadBalancer(internal).value)] else [])
      && (spec.publicIPName == "" ==> l.publicIPAddress == None)
      && (spec.publicIPName != "" ==>
            l.publicIPAddress.Some? && cloud.getPublicIP(spec.publicIPName) == Ok(l.publicIPAddress.value))
      && (spec.acceleratedNetworking.Some? ==> l.acceleratedNetworking == spec.acceleratedNetworking.value)
      && (spec.acceleratedNetworking.None? ==>
            cloud.hasAcceleratedNetworking(spec.vmSize) == Ok(l.acceleratedNetworking))
  {
    var internal := InternalLoadBalancerStage(spec, cloud);
    match internal.outcome
    case Err(e) => Stage(internal.calls, Err(e))
    case Ok(internalPools) =>
      var ip := PublicIPStage(spec, cloud);
      var calls := internal.calls + ip.calls;
      match ip.outcome
      case Err(e) => Stage(calls, Err(e))
      case Ok(publicIP) =>
        var accel := AcceleratedNetworkingStage(spec, cloud);
        match accel.outcome
        case Err(e) => Stage(calls + accel.calls, Err(e))
        case Ok(flag) => Stage(calls + accel.calls, Ok(LaterLookups(internalPools, publicIP, flag)))
  }

  /** The lookups after the subnet: the public load balancer (with the NAT
      rule), then the later lookups once it succeeded. */
  function BalancerLookupStage(spec: NicSpec, cloud: NicCloud, subnetId: string): (s: Stage<Lookups>)
    requires LoadBalancersUsable(spec, cloud)
    ensures forall c :: c in s.calls ==> !c.CreateInterface? && !c.GetSubnet?
    ensures forall c :: c in s.calls && c.CreateNatRule? ==> NatRuleCallAllowed(spec, cloud, c)
    ensures spec.acceleratedNetworking.Some? ==> forall c :: c in s.calls ==> !c.LookupAcceleratedNetworking?
    ensures s.outcome.Ok? && cloud.getSubnetId(spec.vnetResourceGroup, spec.vnetName, spec.subnetName) == Ok(subnetId) ==>
      LookupsAgree(spec, cloud, s.outcome.value)
  {
    var pub := PublicLoadBalancerStage(spec, cloud);
    match pub.outcome
    case Err(e) => Stage(pub.calls, Err(e))
    case Ok(pubResult) =>
      var later := LaterLookupStage(spec, cloud);
      match later.outcome
      case Err(e) => Stage(pub.calls + later.calls, Err(e))
      case Ok(l) =>
        Stage(pub.calls + later.calls, Ok(Lookups(subnetId, pubResult.0 + l.internalPools, pubResult.1,
                                                  l.publicIPAddress, l.acceleratedNetworking)))
  }

  /** Every lookup of one interface in order, stopping at the first error:
      the subnet, the public load balancer (with the NAT rule), then the
      later lookups. */
  function LookupStage(spec: NicSpec, cloud: NicCloud): (s: Stage<Lookups>)
    requires LoadBalancersUsable(spec, cloud)
    ensures |s.calls| >= 1
    ensures s.calls[0] == GetSubnet(spec.vnetResourceGroup, spec.vnetName, spec.subnetName)
    ensures forall c :: c in s.calls ==> !c.CreateInterface?
    ensures forall c :: c in s.calls && c.CreateNatRule? ==> NatRuleCallAllowed(spec, cloud, c)
    ensures spec.acceleratedNetworking.Some? ==> forall c :: c in s.calls ==> !c.LookupAcceleratedNetworking?
    ensures s.outcome.Ok? ==> LookupsAgree(spec, cloud, s.outcome.value)
  {
    var subnetCall := [GetSubnet(spec.vnetResourceGroup, spec.vnetName, spec.subnetName)];
    match cloud.getSubnetId(spec.vnetResourceGroup, spec.vnetName, spec.subnetName)
    case Err(e) => Stage(subnetCall, Err(e))
    case Ok(subnetId) =>
      var rest := BalancerLookupStage(spec, cloud, subnetId);
      Stage(subnetCall + rest.calls, rest.outcome)
  }

  /** The later lookups call the internal load balancer, then the public IP,
      then the capability, each only when named (the capability only when
      the flag is unset), and stop after the first that fails. */
  lemma LaterLookupStageCalls(spec: NicSpec, cloud: NicCloud)
    requires LoadBalancersUsable(spec, cloud)
    ensures var internal := spec.internalLoadBalancerName;
      var ipName := spec.publicIPName;
      var internalCalls := if internal == "" then [] else [GetLoadBalancer(internal)];
      var ipCalls := if ipName == "" then [] else [GetPublicIP(ipName)];
      var accelCalls := if spec.acceleratedNetworking.Some? then [] else [LookupAcceleratedNetworking(spec.vmSize)];
      var internalFound := internal == "" || cloud.getLoadBalancer(internal).Ok?;
      var ipFound := ipName == "" || cloud.getPublicIP(ipName).Ok?;
      LaterLookupStage(spec, cloud).calls ==
        internalCalls + (if internalFound then ipCalls + (if ipFound then accelCalls else []) else [])
  {
  }

  /** The lookups call the subnet, then, once it is found, the public
      load-balancer stage, then, once that stage succeeded, the later
      lookups. */
  lemma LookupStageCalls(spec: NicSpec, cloud: NicCloud)
    requires LoadBalancersUsable(spec, cloud)
    ensures var pub := PublicLoadBalancerStage(spec, cloud);
      LookupStage(spec, cloud).calls ==
        [GetSubnet(spec.vnetResourceGroup, spec.vnetName, spec.subnetName)]
        + (if cloud.getSubnetId(spec.vnetResourceGroup, spec.vnetName, spec.subnetName).Err? then []
           else pub.calls + (if pub.outcome.Err? then [] else LaterLookupStage(spec, cloud).calls))
  {
  }

  /** The NAT rule of a control-plane machine goes through: it exists
      already, or it can be planned and its create succeeds. */
  ghost predicate NatRuleAnswered(lb: LoadBalancer, ruleName: string, cloud: NicCloud)
    requires FrontendIndexable(lb, ruleName)
  {
    var plan := PlanInboundNatRule(lb, ruleName);
    plan.Ok? && (plan.value.Some? ==> cloud.createNatRule(lb.name, plan.value.value).Done?)
  }

  /** Every lookup of one interface is answered: the subnet, the public load
      balancer and, for a control-plane machine, its NAT rule, the internal
      load balancer, the public IP, and the capability when the spec leaves
      the flag unset. */
  ghost predicate LookupsAnswered(spec: NicSpec, cloud: NicCloud)
    requires LoadBalancersUsable(spec, cloud)
  {
    var pub := spec.publicLoadBalancerName;
    && cloud.getSubnetId(spec.vnetResourceGroup, spec.vnetName, spec.subnetName).Ok?
    && (pub != "" ==>
          && cloud.getLoadBalancer(pub).Ok?
          && (spec.machineRole == ControlPlaneRole ==>
                NatRuleAnswered(cloud.getLoadBalancer(pub).value, spec.machineName, cloud)))
    && (spec.internalLoadBalancerName != "" ==> cloud.getLoadBalancer(spec.internalLoadBalancerName).Ok?)
    && (spec.publicIPName != "" ==> cloud.getPublicIP(spec.publicIPName).Ok?)
    && (spec.acceleratedNetworking.None? ==> cloud.hasAcceleratedNetworking(spec.vmSize).Ok?)
  }

  /** `c` fetched the public load balancer, whose NAT rule for a
      control-plane machine then could not be planned, with error `e`. */
  ghost predicate NatRulePlanFailed(spec: NicSpec, cloud: NicCloud, c: NicCall, e: Error)
    requires LoadBalancersUsable(spec, cloud)
  {
    && spec.machineRole == ControlPlaneRole
    && spec.publicLoadBalancerName != ""
    && c == GetLoadBalancer(spec.publicLoadBalancerName)
    && cloud.getLoadBalancer(spec.publicLoadBalancerName).Ok?
    && PlanInboundNatRule(cloud.getLoadBalancer(spec.publicLoadBalancerName).value, spec.machineName) == Err(e)
  }

  /** Calls that end in failure with `e`: every call but the last succeeded,
      and the last one failed with `e`, or was the fetch after which the NAT
      rule could not be planned. */
  ghost predicate EndsInFailure(spec: NicSpec, cloud: NicCloud, calls: seq<NicCall>, e: Error)
    requires LoadBalancersUsable(spec, cloud)
  {
    && |calls| > 0
    && AllSucceeded(cloud, calls[..|calls| - 1])
    && (CallError(cloud, calls[|calls| - 1]) == Some(e) || NatRulePlanFailed(spec, cloud, calls[|calls| - 1], e))
  }

  lemma EndsInFailureAfter(spec: NicSpec, cloud: NicCloud, before: seq<NicCall>, calls: seq<NicCall>, e: Error)
    requires LoadBalancersUsable(spec, cloud)
    requires AllSucceeded(cloud, before) && EndsInFailure(spec, cloud, calls, e)
    ensures EndsInFailure(spec, cloud, before + calls, e)
  {
    var all := before + calls;
    assert all[..|all| - 1] == before + calls[..|calls| - 1];
    assert all[|all| - 1] == calls[|calls| - 1];
  }

  /** The public load-balancer stage succeeds exactly when its part of the
      lookups is answered; a failure is its last call's. */
  lemma PublicLoadBalancerStageTrace(spec: NicSpec, cloud: NicCloud)
    requires LoadBalancersUsable(spec, cloud)
    ensures var s := PublicLoadBalancerStage(spec, cloud);
      var pub := spec.publicLoadBalancerName;
      && (s.outcome.Ok? <==>
            (pub != "" ==>
               && cloud.getLoadBalancer(pub).Ok?
               && (spec.machineRole == ControlPlaneRole ==>
                     NatRuleAnswered(cloud.getLoadBalancer(pub).value, spec.machineName, cloud))))
      && (s.outcome.Ok? ==> AllSucceeded(cloud, s.calls))
      && (s.outcome.Err? ==> EndsInFailure(spec, cloud, s.calls, s.outcome.error))
  {
    var s := PublicLoadBalancerStage(spec, cloud);
    var pub := spec.publicLoadBalancerName;
    if pub != "" && cloud.getLoadBalancer(pub).Ok? && spec.machineRole == ControlPlaneRole {
      var lb := cloud.getLoadBalancer(pub).value;
      var natRun := CreateInboundNatRule(lb, spec.machineName, cloud);
      var fetch := GetLoadBalancer(pub);
      assert s.calls == [fetch] + natRun.calls;
      if |natRun.calls| == 0 {
        assert s.calls == [fetch];
      } else {
        assert s.calls[..|s.calls| - 1] == [fetch];
      }
    }
  }

  /** The later lookups succeed exactly when each of them is answered; a
      failure is their last call's. */
  lemma LaterLookupStageTrace(spec: NicSpec, cloud: NicCloud)
    requires LoadBalancersUsable(spec, cloud)
    ensures var s := LaterLookupStage(spec, cloud);
      && (s.outcome.Ok? <==>
            && (spec.internalLoadBalancerName != "" ==> cloud.getLoadBalancer(spec.internalLoadBalancerName).Ok?)
            && (spec.publicIPName != "" ==> cloud.getPublicIP(spec.publicIPName).Ok?)
            && (spec.acceleratedNetworking.None? ==> cloud.hasAcceleratedNetworking(spec.vmSize).Ok?))
      && (s.outcome.Ok? ==> AllSucceeded(cloud, s.calls))
      && (s.outcome.Err? ==> EndsInFailure(spec, cloud, s.calls, s.outcome.error))
  {
    var internal := InternalLoadBalancerStage(spec, cloud);
    if internal.outcome.Ok? {
      var ip := PublicIPStage(spec, cloud);
      if ip.outcome.Err? {
        EndsInFailureAfter(spec, cloud, internal.calls, ip.calls, ip.outcome.error);
      } else {
        var accel := AcceleratedNetworkingStage(spec, cloud);
        if accel.outcome.Err? {
          EndsInFailureAfter(spec, cloud, internal.calls + ip.calls, accel.calls, accel.outcome.error);
        }
      }
    }
  }

  /** Once the subnet is found, the lookups after it succeed exactly when
      every lookup is answered; a failure is their last call's, or the NAT
      rule plan's. */
  lemma BalancerLookupStageTrace(spec: NicSpec, cloud: NicCloud, subnetId: string)
    requires LoadBalancersUsable(spec, cloud)
    requires cloud.getSubnetId(spec.vnetResourceGroup, spec.vnetName, spec.subnetName).Ok?
    ensures var s := BalancerLookupStage(spec, cloud, subnetId);
      && (s.outcome.Ok? <==> LookupsAnswered(spec, cloud))
      && (s.outcome.Ok? ==> AllSucceeded(cloud, s.calls))
      && (s.outcome.Err? ==> EndsInFailure(spec, cloud, s.calls, s.outcome.error))
  {
    var pub := PublicLoadBalancerStage(spec, cloud);
    PublicLoadBalancerStageTrace(spec, cloud);
    if pub.outcome.Ok? {
      var later := LaterLookupStage(spec, cloud);
      LaterLookupStageTrace(spec, cloud);
      if later.outcome.Err? {
        EndsInFailureAfter(spec, cloud, pub.calls, later.calls, later.outcome.error);
      }
    }
  }

  /** The lookups of one interface succeed exactly when every one of them
      is answered. Every call but a failing last one succeeded, and the
      error returned is that last call's, or the NAT rule plan's right after
      the public load balancer was fetched. */
  lemma LookupStageStopsAtFirstFailure(spec: NicSpec, cloud: NicCloud)
    requires LoadBalancersUsable(spec, cloud)
    ensures var s := LookupStage(spec, cloud);
      && (s.outcome.Ok? <==> LookupsAnswered(spec, cloud))
      && (s.outcome.Ok? ==> AllSucceeded(cloud, s.calls))
      && (s.outcome.Err? ==> EndsInFailure(spec, cloud, s.calls, s.outcome.error))
  {
    var subnetCall := [GetSubnet(spec.vnetResourceGroup, spec.vnetName, spec.subnetName)];
    match cloud.getSubnetId(spec.vnetResourceGroup, spec.vnetName, spec.subnetName)
    case Err(_) =>
    case Ok(subnetId) =>
      var rest := BalancerLookupStage(spec, cloud, subnetId);
      BalancerLookupStageTrace(spec, cloud, subnetId);
      if rest.outcome.Err? {
        EndsInFailureAfter(spec, cloud, subnetCall, rest.calls, rest.outcome.error);
      }
  }

  /** The interface sent for a machine, from the results of its lookups. */
  function BuildInterface(spec: NicSpec, location: string, l: Lookups): Interface {
    var (allocation, privateIP) := Allocation(spec);
    Interface(
      location,
      IpConfigurationName,
      IpConfiguration(l.subnetId, allocation, privateIP, l.backendPoolIds, l.inboundNatRuleIds, l.publicIPAddress),
      l.acceleratedNetworking)
  }

  /** The interface a successful pass must send, stated from the clients'
      answers: in the requested location, under the single configuration
      name, with the private address allocation the spec asks for and the
      lookups' results. */
  ghost predicate Assembled(spec: NicSpec, location: string, cloud: NicCloud, iface: Interface)
    requires LoadBalancersUsable(spec, cloud)
  {
    var cfg := iface.ipConfiguration;
    && iface.location == location
    && iface.ipConfigurationName == IpConfigurationName
    && (spec.staticIPAddress == "" ==> cfg.allocation == Dynamic && cfg.privateIPAddress == None)
    && (spec.staticIPAddress != "" ==>
          cfg.allocation == Static && cfg.privateIPAddress == Some(spec.staticIPAddress))
    && LookupsAgree(spec, cloud, Lookups(cfg.subnetId, cfg.backendPoolIds, cfg.inboundNatRuleIds,
                                         cfg.publicIPAddress, iface.enableAcceleratedNetworking))
  }

  /** Built from lookups that agree with the clients, the interface is the
      one a pass must send. */
  lemma BuildInterfaceAssembles(spec: NicSpec, location: string, cloud: NicCloud, l: Lookups)
    requires LoadBalancersUsable(spec, cloud)
    requires LookupsAgree(spec, cloud, l)
    ensures Assembled(spec, location, cloud, BuildInterface(spec, location, l))
  {
  }

  /** One iteration of the reconcile loop: the lookups, then the
      create-or-update of the interface. */
  function ReconcileNic(spec: NicSpec, location: string, cloud: NicCloud): (r: Run)
    requires LoadBalancersUsable(spec, cloud)
    ensures |r.calls| >= 1
    ensures r.calls[0] == GetSubnet(spec.vnetResourceGroup, spec.vnetName, spec.subnetName)
    ensures r.error.None? ==> r.calls[|r.calls| - 1].CreateInterface?
    // successful lookups always lead to the interface create, under the spec's name
    ensures LookupStage(spec, cloud).outcome.Ok? ==>
      r.calls[|r.calls| - 1].CreateInterface? && r.calls[|r.calls| - 1].nicName == spec.name
    // and every call before the create is one of the lookups, in order
    ensures LookupStage(spec, cloud).outcome.Ok? ==> r.calls[..|r.calls| - 1] == LookupStage(spec, cloud).calls
    // failed lookups end the iteration with their error
    ensures LookupStage(spec, cloud).outcome.Err? ==>
      r == Run(LookupStage(spec, cloud).calls, Some(LookupStage(spec, cloud).outcome.error))
  {
    var lookups := LookupStage(spec, cloud);
    match lookups.outcome
    case Err(e) => Run(lookups.calls, Some(e))
    case Ok(l) =>
      var iface := BuildInterface(spec, location, l);
      Run(lookups.calls + [CreateInterface(spec.name, iface)], ErrorOf(cloud.createInterface(spec.name, iface)))
  }

  /** The interface is sent at most once, as the last call, correctly
      assembled, and its answer is the result of the iteration. */
  lemma ReconcileNicSendsAssembledInterface(spec: NicSpec, location: string, cloud: NicCloud)
    requires LoadBalancersUsable(spec, cloud)
    ensures var r := ReconcileNic(spec, location, cloud);
      && (forall c :: c in r.calls[..|r.calls| - 1] ==> !c.CreateInterface?)
      && (r.calls[|r.calls| - 1].CreateInterface? ==>
            var c := r.calls[|r.calls| - 1];
            && c.nicName == spec.name
            && Assembled(spec, location, cloud, c.iface)
            && r.error == ErrorOf(cloud.createInterface(spec.name, c.iface)))
  {
    var r := ReconcileNic(spec, location, cloud);
    var lookups := LookupStage(spec, cloud);
    if lookups.outcome.Err? {
      assert r.calls == lookups.calls;
      assert r.calls[..|r.calls| - 1] <= lookups.calls;
    } else {
      var iface := BuildInterface(spec, location, lookups.outcome.value);
      assert r.calls == lookups.calls + [CreateInterface(spec.name, iface)];
      assert r.calls[..|r.calls| - 1] == lookups.calls;
    }
  }

  /** The interface is created exactly when every lookup is answered. The
      iteration succeeds exactly when, in addition, every call it made
      succeeded; a failure is the answer of its last call, or the NAT rule
      plan's right after the public load balancer was fetched. */
  lemma ReconcileNicStopsAtFirstFailure(spec: NicSpec, location: string, cloud: NicCloud)
    requires LoadBalancersUsable(spec, cloud)
    ensures var r := ReconcileNic(spec, location, cloud);
      && (r.calls[|r.calls| - 1].CreateInterface? <==> LookupsAnswered(spec, cloud))
      && (r.error.None? <==> LookupsAnswered(spec, cloud) && AllSucceeded(cloud, r.calls))
      && (r.error.Some? ==> EndsInFailure(spec, cloud, r.calls, r.error.value))
  {
    LookupStageStopsAtFirstFailure(spec, cloud);
    if LookupStage(spec, cloud).outcome.Ok? {
      ReconcileNicAfterLookups(spec, location, cloud);
    } else {
      var lookups := LookupStage(spec, cloud);
      assert lookups.calls[|lookups.calls| - 1] in lookups.calls;
    }
  }

  /** After successful lookups, the create is the last call and decides the
      iteration. */
  lemma ReconcileNicAfterLookups(spec: NicSpec, location: string, cloud: NicCloud)
    requires LoadBalancersUsable(spec, cloud)
    requires LookupStage(spec, cloud).outcome.Ok? && AllSucceeded(cloud, LookupStage(spec, cloud).calls)
    ensures var r := ReconcileNic(spec, location, cloud);
      && r.calls[|r.calls| - 1].CreateInterface?
      && (r.error.None? <==> AllSucceeded(cloud, r.calls))
      && (r.error.Some? ==> EndsInFailure(spec, cloud, r.calls, r.error.value))
  {
    var lookups := LookupStage(spec, cloud);
    var iface := BuildInterface(spec, location, lookups.outcome.value);
    var create := [CreateInterface(spec.name, iface)];
    var r := ReconcileNic(spec, location, cloud);
    assert r.calls == lookups.calls + create;
    if r.error.Some? {
      EndsInFailureAfter(spec, cloud, lookups.calls, create, r.error.value);
    }
  }

  /** A NAT rule is created only for a control-plane machine behind a public
      load balancer, and it is the rule planned on that balancer. Conversely,
      once the subnet and that balancer are found, a planned rule is created
      right after the fetch, before any later lookup and before the
      interface. */
  lemma ReconcileNicNatRule(spec: NicSpec, location: string, cloud: NicCloud)
    requires LoadBalancersUsable(spec, cloud)
    ensures forall c :: c in ReconcileNic(spec, location, cloud).calls && c.CreateNatRule? ==>
      NatRuleCallAllowed(spec, cloud, c)
    ensures var pub := spec.publicLoadBalancerName;
      (&& spec.machineRole == ControlPlaneRole && pub != ""
       && cloud.getSubnetId(spec.vnetResourceGroup, spec.vnetName, spec.subnetName).Ok?
       && cloud.getLoadBalancer(pub).Ok?
       && PlanInboundNatRule(cloud.getLoadBalancer(pub).value, spec.machineName).Ok?
       && PlanInboundNatRule(cloud.getLoadBalancer(pub).value, spec.machineName).value.Some?) ==>
        var lb := cloud.getLoadBalancer(pub).value;
        var rule := PlanInboundNatRule(lb, spec.machineName).value.value;
        var calls := ReconcileNic(spec, location, cloud).calls;
        |calls| >= 3
        && calls[..3] == [GetSubnet(spec.vnetResourceGroup, spec.vnetName, spec.subnetName),
                          GetLoadBalancer(pub), CreateNatRule(lb.name, rule)]
  {
    var lookups := LookupStage(spec, cloud);
    var r := ReconcileNic(spec, location, cloud);
    if lookups.outcome.Ok? {
      var iface := BuildInterface(spec, location, lookups.outcome.value);
      assert r.calls == lookups.calls + [CreateInterface(spec.name, iface)];
    }
    if && spec.machineRole == ControlPlaneRole && spec.publicLoadBalancerName != ""
       && cloud.getSubnetId(spec.vnetResourceGroup, spec.vnetName, spec.subnetName).Ok?
       && cloud.getLoadBalancer(spec.publicLoadBalancerName).Ok?
       && PlanInboundNatRule(cloud.getLoadBalancer(spec.publicLoadBalancerName).value, spec.machineName).Ok?
       && PlanInboundNatRule(cloud.getLoadBalancer(spec.publicLoadBalancerName).value, spec.machineName).value.Some?
    {
      PlannedRuleCreatedThird(spec, cloud);
      assert r.calls[..3] == lookups.calls[..3];
    }
  }

  /** A planned NAT rule is the third call of the lookups: after the subnet
      and the public load balancer. */
  lemma PlannedRuleCreatedThird(spec: NicSpec, cloud: NicCloud)
    requires LoadBalancersUsable(spec, cloud)
    requires spec.machineRole == ControlPlaneRole && spec.publicLoadBalancerName != ""
    requires cloud.getSubnetId(spec.vnetResourceGroup, spec.vnetName, spec.subnetName).Ok?
    requires cloud.getLoadBalancer(spec.publicLoadBalancerName).Ok?
    requires PlanInboundNatRule(cloud.getLoadBalancer(spec.publicLoadBalancerName).value, spec.machineName).Ok?
    requires PlanInboundNatRule(cloud.getLoadBalancer(spec.publicLoadBalancerName).value, spec.machineName).value.Some?
    ensures var lb := cloud.getLoadBalancer(spec.publicLoadBalancerName).value;
      var rule := PlanInboundNatRule(lb, spec.machineName).value.value;
      var calls := LookupStage(spec, cloud).calls;
      |calls| >= 3
      && calls[..3] == [GetSubnet(spec.vnetResourceGroup, spec.vnetName, spec.subnetName),
                        GetLoadBalancer(spec.publicLoadBalancerName), CreateNatRule(lb.name, rule)]
  {
    var lb := cloud.getLoadBalancer(spec.publicLoadBalancerName).value;
    var rule := PlanInboundNatRule(lb, spec.machineName).value.value;
    var natRun := CreateInboundNatRule(lb, spec.machineName, cloud);
    assert natRun.calls == [CreateNatRule(lb.name, rule)];
    var pub := PublicLoadBalancerStage(spec, cloud);
    assert pub.calls == [GetLoadBalancer(spec.publicLoadBalancerName), CreateNatRule(lb.name, rule)];
    LookupStageCalls(spec, cloud);
  }

  /** The capability lookup is consulted only when the flag is unset. */
  lemma ReconcileNicAcceleratedLookup(spec: NicSpec, location: string, cloud: NicCloud)
    requires LoadBalancersUsable(spec, cloud)
    requires spec.acceleratedNetworking.Some?
    ensures forall c :: c in ReconcileNic(spec, location, cloud).calls ==> !c.LookupAcceleratedNetworking?
  {
    var lookups := LookupStage(spec, cloud);
    if lookups.outcome.Ok? {
      var iface := BuildInterface(spec, location, lookups.outcome.value);
      assert ReconcileNic(spec, location, cloud).calls == lookups.calls + [CreateInterface(spec.name, iface)];
    }
  }

  /** One iteration of the delete loop: the interface, then its NAT rule on
      the public load balancer (named even when that name is empty); a
      not-found answer counts as success. */
  function DeleteNic(spec: NicSpec, cloud: NicCloud): (r: Run)
    ensures 1 <= |r.calls| <= 2
    ensures r.calls[0] == DeleteInterface(spec.name)
    // the NAT rule is attempted exactly when the interface delete went through
    ensures |r.calls| == 2 <==> DeleteTolerates(cloud.deleteInterface(spec.name))
    ensures |r.calls| == 2 ==> r.calls[1] == DeleteNatRule(spec.publicLoadBalancerName, spec.machineName)
    // success exactly when both answers are tolerated
    ensures r.error.None? <==>
      DeleteTolerates(cloud.deleteInterface(spec.name))
      && DeleteTolerates(cloud.deleteNatRule(spec.publicLoadBalancerName, spec.machineName))
    ensures r.error.Some? ==> r.error.value != NotFound
    // the error is the failing client's own answer
    ensures |r.calls| == 1 ==> r.error == ErrorOf(cloud.deleteInterface(spec.name))
    ensures |r.calls| == 2 && r.error.Some? ==>
      r.error == ErrorOf(cloud.deleteNatRule(spec.publicLoadBalancerName, spec.machineName))
    ensures r.error.Some? ==> r.error == CallError(cloud, r.calls[|r.calls| - 1])
  {
    var nicStatus := cloud.deleteInterface(spec.name);
    if !DeleteTolerates(nicStatus) then
      Run([DeleteInterface(spec.name)], ErrorOf(nicStatus))
    else
      var ruleStatus := cloud.deleteNatRule(spec.publicLoadBalancerName, spec.machineName);
      Run([DeleteInterface(spec.name), DeleteNatRule(spec.publicLoadBalancerName, spec.machineName)],
          if DeleteTolerates(ruleStatus) then None else ErrorOf(ruleStatus))
  }

  // ---------------------------------------------------------------------
  // The loops over all interfaces
  // ---------------------------------------------------------------------

  /** All calls of a sequence of runs, in order. */
  function Flatten(runs: seq<Run>): seq<NicCall> {
    if |runs| == 0 then [] else Flatten(runs[..|runs| - 1]) + runs[|runs| - 1].calls
  }

  /** What a loop that performs `runs` in order and returns at the first
      error leaves behind: all runs succeeded and all their calls were made,
      or run k failed, every earlier one succeeded, and no call of a later
      run was made. */
  ghost predicate StopsAtFirstError(runs: seq<Run>, calls: seq<NicCall>, error: Option<Error>) {
    if error.None? then
      (forall i :: 0 <= i < |runs| ==> runs[i].error.None?) && calls == Flatten(runs)
    else
      exists k :: 0 <= k < |runs|
        && (forall i :: 0 <= i < k ==> runs[i].error.None?)
        && runs[k].error == error
        && calls == Flatten(runs[..k + 1])
  }

  lemma FlattenStep(runs: seq<Run>, i: nat)
    requires i < |runs|
    ensures Flatten(runs[..i + 1]) == Flatten(runs[..i]) + runs[i].calls
  {
    assert runs[..i + 1][..i] == runs[..i];
  }

  lemma StoppedAt(runs: seq<Run>, k: nat, calls: seq<NicCall>)
    requires k < |runs| && runs[k].error.Some?
    requires forall i :: 0 <= i < k ==> runs[i].error.None?
    requires calls == Flatten(runs[..k + 1])
    ensures StopsAtFirstError(runs, calls, runs[k].error)
  {
  }

  /** The runs of `step` over `inputs`, in order. */
  function Runs(inputs: seq<NicSpec>, step: NicSpec --> Run): (runs: seq<Run>)
    requires forall i :: 0 <= i < |inputs| ==> step.requires(inputs[i])
    ensures |runs| == |inputs|
    ensures forall i :: 0 <= i < |inputs| ==> runs[i] == step(inputs[i])
  {
    seq(|inputs|, i requires 0 <= i < |inputs| => step(inputs[i]))
  }

  /** The loop shared by Reconcile and Delete: performs `step` on every
      input in order and returns at the first error. */
  method PerformInOrder(inputs: seq<NicSpec>, step: NicSpec --> Run)
    returns (calls: seq<NicCall>, error: Option<Error>)
    requires forall i :: 0 <= i < |inputs| ==> step.requires(inputs[i])
    ensures StopsAtFirstError(Runs(inputs, step), calls, error)
  {
    ghost var runs := Runs(inputs, step);
    calls, error := [], None;
    var i := 0;
    while i < |inputs|
      invariant 0 <= i <= |inputs|
      invariant forall j :: 0 <= j < i ==> runs[j].error.None?
      invariant calls == Flatten(runs[..i])
    {
      var run := step(inputs[i]);
      FlattenStep(runs, i);
      calls := calls + run.calls;
      if run.error.Some? {
        error := run.error;
        StoppedAt(runs, i, calls);
        return;
      }
      i := i + 1;
    }
    assert runs[..|inputs|] == runs;
  }

  function ReconcileRuns(specs: seq<NicSpec>, location: string, cloud: NicCloud): (runs: seq<Run>)
    requires forall i :: 0 <= i < |specs| ==> LoadBalancersUsable(specs[i], cloud)
    ensures |runs| == |specs|
    ensures forall i :: 0 <= i < |specs| ==> runs[i] == ReconcileNic(specs[i], location, cloud)
  {
    seq(|specs|, i requires 0 <= i < |specs| => ReconcileNic(specs[i], location, cloud))
  }

  function DeleteRuns(specs: seq<NicSpec>, cloud: NicCloud): (runs: seq<Run>)
    ensures |runs| == |specs|
    ensures forall i :: 0 <= i < |specs| ==> runs[i] == DeleteNic(specs[i], cloud)
  {
    seq(|specs|, i requires 0 <= i < |specs| => DeleteNic(specs[i], cloud))
  }

  /** Reconciles every interface in order; the first error is returned and
      no later interface is touched. */
  method Reconcile(specs: seq<NicSpec>, location: string, cloud: NicCloud)
    returns (calls: seq<NicCall>, error: Option<Error>)
    requires forall i :: 0 <= i < |specs| ==> LoadBalancersUsable(specs[i], cloud)
    ensures StopsAtFirstError(ReconcileRuns(specs, location, cloud), calls, error)
  {
    var step := (spec: NicSpec) requires LoadBalancersUsable(spec, cloud) => ReconcileNic(spec, location, cloud);
    calls, error := PerformInOrder(specs, step);
    assert Runs(specs, step) == ReconcileRuns(specs, location, cloud);
  }

  /** Deletes every interface and its NAT rule in order; not-found answers
      are tolerated, any other error is returned and no later interface is
      touched. */
  method Delete(specs: seq<NicSpec>, cloud: NicCloud)
    returns (calls: seq<NicCall>, error: Option<Error>)
    ensures StopsAtFirstError(DeleteRuns(specs, cloud), calls, error)
    ensures error.Some? ==> error.value != NotFound
    // the error returned is the answer to the last delete made
    ensures error.Some? ==> |calls| > 0 && error == CallError(cloud, calls[|calls| - 1])
  {
    var step := (spec: NicSpec) => DeleteNic(spec, cloud);
    calls, error := PerformInOrder(specs, step);
    assert Runs(specs, step) == DeleteRuns(specs, cloud);
    if error.Some? {
      DeleteErrorIsLastAnswer(specs, cloud, calls, error);
    }
  }

  /** A delete loop that stopped at an error stopped on the answer to its
      last call. */
  lemma DeleteErrorIsLastAnswer(specs: seq<NicSpec>, cloud: NicCloud, calls: seq<NicCall>, error: Option<Error>)
    requires StopsAtFirstError(DeleteRuns(specs, cloud), calls, error) && error.Some?
    ensures |calls| > 0 && error == CallError(cloud, calls[|calls| - 1])
  {
    var runs := DeleteRuns(specs, cloud);
    var k :| 0 <= k < |runs| && runs[k].error == error && calls == Flatten(runs[..k + 1]);
    FlattenStep(runs, k);
    var last := runs[k].calls;
    assert calls[|calls| - 1] == last[|last| - 1];
  }
}

=== FILE: outcomes.dfy ===
/** Results of calls into the cloud provider's resource clients, and the
    error taxonomy the reconcilers distinguish. Error message texts are not
    modelled: only the kind of error, and the resource it concerns. */
module Outcomes {

  datatype Option<+T> = None | Some(value: T)

  /** The kinds of error the reconcilers tell apart. Only `NotFound` is ever
      tolerated, and only by delete steps. */
  datatype Error =
    | NotFound
      /** Any other provider failure (throttling, timeout, conflict, ...). */
    | ProviderError(reason: string)
      /** Required upstream state is missing from a resource. */
    | ConfigError(resource: string)
      /** The bounded NAT frontend-port range is exhausted. */
    | CapacityError(resource: string)

  /** The answer of a client call that returns a value. */
  datatype Result<+T> = Ok(value: T) | Err(error: Error)

  /** The answer of a client call that returns only an error (or nil). */
  datatype Status = Done | Failed(error: Error)

  /** A delete step proceeds when the call succeeded or the resource was
      already gone. */
  predicate DeleteTolerates(s: Status) {
    s.Done? || s.error.NotFound?
  }

  /** The error a status carries, if any. */
  function ErrorOf(s: Status): (e: Option<Error>)
    ensures e.None? <==> s.Done?
    ensures e.Some? ==> s == Failed(e.value)
  {
    match s
    case Done => None
    case Failed(err) => Some(err)
  }
}

=== FILE: services.dfy ===
/** The per-resource services the cluster orchestrator drives, the specs it
    hands them, and the fail-fast sequencing every orchestration step uses.

    A service is an oracle: given a call it answers Done or Failed(error).
    The orchestrator's behaviour is a trace, the calls it made in order. */
module Services {
  import opened Outcomes

  /** One service per resource kind, plus the zone listing. */
  datatype Kind =
    | AvailabilityZones
    | ResourceGroups
    | VirtualNetworks
    | SecurityGroups
    | RouteTables
    | Subnets
    | InternalLoadBalancers
    | PublicIPs
    | PublicLoadBalancers

  /** The value objects handed to the services; delete specs leave the
      fields they do not need empty, as the source's zero values do. The
      resource group is reconciled and deleted without a spec. */
  datatype Spec =
    | Group
    | VirtualNetwork(resourceGroup: string, name: string, cidrs: seq<string>)
    | SecurityGroup(name: string, isControlPlane: bool)
    | RouteTable(name: string)
    | Subnet(name: string, cidrs: seq<string>, vnetName: string, securityGroupName: string,
             role: string, routeTableName: string, internalLBIPAddress: string)
    | InternalLB(name: string, subnetName: string, subnetCidr: string, vnetName: string,
                 ipAddress: string)
    | PublicIP(name: string, dnsName: string, isIPv6: bool)
    | PublicLB(name: string, publicIPName: string, isAPIServer: bool)

  datatype Call = ListZones | ReconcileCall(spec: Spec) | DeleteCall(spec: Spec)

  function SpecKind(s: Spec): Kind {
    match s
    case Group => ResourceGroups
    case VirtualNetwork(_, _, _) => VirtualNetworks
    case SecurityGroup(_, _) => SecurityGroups
    case RouteTable(_) => RouteTables
    case Subnet(_, _, _, _, _, _, _) => Subnets
    case InternalLB(_, _, _, _, _) => InternalLoadBalancers
    case PublicIP(_, _, _) => PublicIPs
    case PublicLB(_, _, _) => PublicLoadBalancers
  }

  function CallKind(c: Call): Kind {
    if c.ListZones? then AvailabilityZones else SpecKind(c.spec)
  }

  function Kinds(calls: seq<Call>): (ks: seq<Kind>)
    ensures |ks| == |calls|
    ensures forall i :: 0 <= i < |calls| ==> ks[i] == CallKind(calls[i])
  {
    seq(|calls|, i requires 0 <= i < |calls| => CallKind(calls[i]))
  }

  /** `DependsOn(a, b)`: a resource of kind `a` refers to one of kind `b`,
      so `b` must exist first and go last. Everything lives in the resource
      group; a subnet names its network, security group and route table; the
      internal load balancer names its subnet; the public load balancer names
      its public IP. */
  predicate DependsOn(a: Kind, b: Kind) {
    || (a != ResourceGroups && a != AvailabilityZones && b == ResourceGroups)
    || (a == Subnets && (b == VirtualNetworks || b == SecurityGroups || b == RouteTables))
    || (a == InternalLoadBalancers && (b == Subnets || b == VirtualNetworks))
    || (a == PublicLoadBalancers && b == PublicIPs)
  }

  /** Deletion order respects dependencies: nothing is removed while a
      resource depending on it is still to be removed. */
  ghost predicate DependentsFirst(ks: seq<Kind>) {
    forall i, j :: 0 <= i < j < |ks| ==> !DependsOn(ks[j], ks[i])
  }

  // ---------------------------------------------------------------------
  // Fail-fast sequencing
  // ---------------------------------------------------------------------

  /** Whether a step lets the sequence go on. Reconcile steps need Done;
      delete steps also accept NotFound. */
  predicate Accepted(s: Status, tolerateNotFound: bool) {
    s.Done? || (tolerateNotFound && s.error.NotFound?)
  }

  /** The calls made and the error returned, if any. */
  datatype Outcome = Outcome(trace: seq<Call>, error: Option<Error>)

  /** Performs the calls of `plan` in order and returns at the first answer
      that is not accepted, with that answer's error. */
  function Run(plan: seq<Call>, respond: Call -> Status, tolerateNotFound: bool): (r: Outcome)
    ensures |r.trace| <= |plan|
    ensures r.error.None? ==> r.trace == plan
    decreases |plan|
  {
    if |plan| == 0 then
      Outcome([], None)
    else
      var status := respond(plan[0]);
      if !Accepted(status, tolerateNotFound) then
        Outcome([plan[0]], Some(status.error))
      else
        var rest := Run(plan[1..], respond, tolerateNotFound);
        Outcome([plan[0]] + rest.trace, rest.error)
  }

  /** What the runner guarantees: only calls of the plan, in plan order with
      none skipped; success exactly when the whole plan was performed with
      every answer accepted; a failure is the answer of the last call made,
      and every earlier call was accepted. */
  lemma {:induction false} RunStopsAtFirstRejection(plan: seq<Call>, respond: Call -> Status, tolerateNotFound: bool)
    ensures var r := Run(plan, respond, tolerateNotFound);
      && r.trace <= plan
      && (r.error.None? ==> r.trace == plan)
      && (r.error.Some? ==>
            && |r.trace| > 0
            && !Accepted(respond(r.trace[|r.trace| - 1]), tolerateNotFound)
            && respond(r.trace[|r.trace| - 1]) == Failed(r.error.value))
      && (forall i :: 0 <= i < |r.trace| && (r.error.None? || i < |r.trace| - 1) ==>
            Accepted(respond(r.trace[i]), tolerateNotFound))
    decreases |plan|
  {
    if |plan| > 0 && Accepted(respond(plan[0]), tolerateNotFound) {
      RunStopsAtFirstRejection(plan[1..], respond, tolerateNotFound);
      var rest := Run(plan[1..], respond, tolerateNotFound);
      assert plan == [plan[0]] + plan[1..];
      assert forall i :: 1 <= i < |rest.trace| + 1 ==> ([plan[0]] + rest.trace)[i] == rest.trace[i - 1];
    }
  }

  /** One step of the runner, for a plan given as its first call and the
      rest. */
  lemma RunCons(c: Call, rest: seq<Call>, respond: Call -> Status, tolerateNotFound: bool)
    ensures Run([c] + rest, respond, tolerateNotFound) ==
      if !Accepted(respond(c), tolerateNotFound) then Outcome([c], Some(respond(c).error))
      else
        var tail := Run(rest, respond, tolerateNotFound);
        Outcome([c] + tail.trace, tail.error)
  {
    assert ([c] + rest)[0] == c;
    assert ([c] + rest)[1..] == rest;
  }

  /** Sequencing composes: running `a + b` is running `a`, and, only if it
      succeeded, going on with `b`. This is why the source's nested helpers,
      each returning on its first error, behave as one flat plan. */
  lemma {:induction false} RunAppend(a: seq<Call>, b: seq<Call>, respond: Call -> Status, tolerateNotFound: bool)
    ensures Run(a + b, respond, tolerateNotFound) ==
      var first := Run(a, respond, tolerateNotFound);
      if first.error.Some? then first
      else
        var second := Run(b, respond, tolerateNotFound);
        Outcome(a + second.trace, second.error)
    decreases |a|
  {
    if |a| == 0 {
      assert a + b == b;
    } else {
      var c, rest := a[0], a[1..];
      assert a == [c] + rest;
      assert a + b == [c] + (rest + b);
      RunCons(c, rest + b, respond, tolerateNotFound);
      RunCons(c, rest, respond, tolerateNotFound);
      if Accepted(respond(c), tolerateNotFound) {
        RunAppend(rest, b, respond, tolerateNotFound);
        var second := Run(b, respond, tolerateNotFound);
        assert [c] + (rest + second.trace) == a + second.trace;
      }
    }
  }

  /** The first failing call ends the sequence: a call of the plan is made
      exactly when every earlier call of the plan was accepted. */
  lemma RunReachesExactly(plan: seq<Call>, respond: Call -> Status, tolerateNotFound: bool, k: nat)
    requires k < |plan|
    ensures k < |Run(plan, respond, tolerateNotFound).trace| <==>
      forall i :: 0 <= i < k ==> Accepted(respond(plan[i]), tolerateNotFound)
  {
    var r := Run(plan, respond, tolerateNotFound);
    RunStopsAtFirstRejection(plan, respond, tolerateNotFound);
    if k < |r.trace| {
      forall i | 0 <= i < k
        ensures Accepted(respond(plan[i]), tolerateNotFound)
      {
        assert r.trace[i] == plan[i];
      }
    } else if r.error.Some? {
      var last := |r.trace| - 1;
      assert r.trace[last] == plan[last];
    }
  }
}
